=== FILE: README.md ===
# Collaborative blog plugin: build scripts and Cloudflare saver, in Dafny

This project models the core of the collaborative-blog TiddlyWiki plugin in
Dafny and proves properties of the model. The core has three parts.

- **The two tiddler parsers.** Dialect A is the `.tid` format: header lines
  `key: value`, then a blank line, then the body. Dialect B is the `.js`
  format: a JavaScript module whose metadata sits between `/*\` and `\*/`
  marker lines. Both parsers appear, identical, in `create-plugin-tid.py`
  and in `convert-to-json.py`. They are modelled once, in `TidFormat` and
  `JsFormat`. `Sources` then adds the two ways the scripts react to a file
  that cannot be read.
- **The two build scripts.**
  - `create-plugin-tid.py` (`PluginTid`) reads `plugin.info` and a fixed
    list of core tiddler files. It keys the records by title and writes one
    dialect-A tiddler: eight header lines filled from `plugin.info`, then
    the serialised title map.
  - `convert-to-json.py` (`PluginJson`) parses every `.tid` file and then
    every `.js` file in sorted order. It keys each record by its title,
    falling back to the file stem, and writes `{"tiddlers": ...}`.
- **The decision rules of the Cloudflare saver.**
  - `cloudflare-saver.js` (`CloudflareSaver`) covers several rules:
    - whether a save is accepted;
    - the timeout;
    - when the user is asked for the password and when it is remembered;
    - the error message built from a failed response;
    - the retry and back-off schedule;
    - the statistics counter.
  - `cloudflare-test-action.js` (`TestAction`) covers the connection test:
    - its checks and the request it sends;
    - the alert it raises for each outcome;
    - how the alert text is normalised into paragraphs.

Supporting modules:
- `Wrappers` holds `Option` and `Result`.
- `Strings` holds `strip`, `split`, `join` and `partition` on `": "`,
  decimal rendering, and `parseInt` on the digits it renders.
- `Assoc` models a Python dict as an insertion-ordered association list. An
  assignment to an existing key overwrites it in place; one to a new key
  appends it.
- `Records` holds the record type shared by both parsers.
- `Sorting` models `sorted` on strings.
- `Paths` models `Path(p).name` and `Path(p).stem`.

A Python `for` loop that fills a dict is modelled as a fold over the
sequence. Each such fold is paired with a reference reading and a lemma that
connects the two. The reference reading is the list of (key, value) pairs
in visiting order; the fold's result is the last value each key receives.

In dialect B every opening marker line starts metadata and every closing
one ends it, wherever they occur (`create-plugin-tid.py:71-76`). A second
marker pair is therefore read as metadata too, and its fields overwrite the
first block's (`JsFormat.JsSecondBlockIsMetadata`).

## Model

| member | source | states |
|---|---|---|
| Strings.Strip | create-plugin-tid.py:81 | the result has no leading or trailing whitespace, is the input when that is already so, keeps every non-space character, and is empty exactly when the input is all whitespace |
| Strings.StripBetweenSpaces | create-plugin-tid.py:81 | the stripped text is a slice of the input with nothing but whitespace before and after it |
| Strings.StripIdempotent | create-plugin-tid.py:81 | stripping twice is stripping once |
| Strings.StripKeepsOnlyChars | create-plugin-tid.py:81 | stripping never introduces a character that was not in the input |
| Strings.Cut | create-plugin-tid.py:37-38 | `split(': ', 1)` succeeds exactly when the separator occurs; the two halves around the first occurrence rebuild the line, and the key never contains the separator |
| Strings.CutColonSpace | create-plugin-tid.py:37-38 | a line written as `key: value` with a key free of `": "` splits back into that key and value, even when the value contains `": "` |
| Strings.JoinSplit | create-plugin-tid.py:66 | joining the `split('\n')` pieces with newlines gives back the content |
| Strings.SplitPieces | create-plugin-tid.py:66 | no piece of a split holds the separator |
| Strings.SplitAround | create-plugin-tid.py:66 | splitting at an inserted separator splits the text on either side independently |
| Strings.SplitJoin | create-plugin-tid.py:85 | splitting a newline-join of newline-free lines gives back those lines |
| Strings.NatToStringRoundTrip | plugins/collaborative-blog/tiddlers/cloudflare-saver.js:147 | the decimal rendering of a status code reads back as that code |
| Strings.IntToStringRoundTrip | plugins/collaborative-blog/tiddlers/cloudflare-saver.js:212-215 | `parseInt(String(n))` is `n` for every integer, negative ones included |
| Assoc.Put | create-plugin-tid.py:39 | after `d[k] = v`, `k` maps to `v`, every other key is unchanged, an existing key keeps its position and a new key is appended, and distinct keys stay distinct |
| Assoc.PutAllGet | create-plugin-tid.py:36-39 | after a sequence of assignments a key holds the last value assigned to it, or its earlier value when none was assigned |
| Assoc.PutAllConcat | convert-to-json.py:99-117 | running two assignment loops one after the other equals one loop over both sequences |
| Assoc.LastValueConcat | convert-to-json.py:99-117 | the last value of a key in two sequences is the one in the second when it has one, otherwise the one in the first |
| TidFormat.ParseTid | create-plugin-tid.py:31-43 | a dialect-A record has distinct keys, always has "text", no key contains `": "`, and the text is empty when the content has no blank line |
| TidFormat.TidBodyAfterFirstBlankLine | create-plugin-tid.py:31-41 | the body is everything after the first blank line, including any later blank lines |
| TidFormat.TidFieldIsLastHeader | create-plugin-tid.py:35-41 | a header key holds the value of its last header line, and "text" is always the body, even when a header line names "text" |
| TidFormat.HeaderPairsOfLines | create-plugin-tid.py:35-39 | reading back `key: value` lines gives the pairs they were written from |
| TidFormat.TidRoundTrip | create-plugin-tid.py:176-189 | parsing a header block plus blank line plus body yields the header fields in order, then the body as "text" |
| JsFormat.ScanFields | create-plugin-tid.py:70-81 | the line loop keeps the metadata keys distinct and every key and value stripped |
| JsFormat.ScanBody | create-plugin-tid.py:70-84 | the line loop only appends to the body, and every line it appends is an input line that is not a marker |
| JsFormat.ParseJs | create-plugin-tid.py:65-87 | a dialect-B record has distinct keys, always has "text", and its keys and metadata values carry no surrounding whitespace |
| JsFormat.JsBodyLines | create-plugin-tid.py:82-85 | the text is the newline-join of the body lines, and none of them is a marker |
| JsFormat.ScanConcat | create-plugin-tid.py:70-84 | the loop over two runs of lines is the loop over the first run continued over the second |
| JsFormat.ScanOutside | create-plugin-tid.py:82-83 | outside a block, marker-free lines go to the body unchanged and assign no field |
| JsFormat.ScanInside | create-plugin-tid.py:78-81 | inside a block, marker-free lines only assign their stripped fields and leave the body alone |
| JsFormat.ScanBlock | create-plugin-tid.py:71-81 | an opening marker, field lines and a closing marker assign the fields and add nothing to the body |
| JsFormat.JsWithoutMarkers | create-plugin-tid.py:66-86 | content without marker lines becomes a record whose only field is "text", holding the whole content |
| JsFormat.MetaPairsOfLines | create-plugin-tid.py:79-81 | metadata lines written as `key: value` read back as the pairs they were written from |
| JsFormat.ScanOneBlock | create-plugin-tid.py:70-84 | one metadata block between plain lines yields exactly its fields and the surrounding lines as body |
| JsFormat.JsRoundTrip | create-plugin-tid.py:65-87 | a module written as plain lines, one metadata block and plain lines parses to the block's fields plus the plain lines joined as "text" |
| JsFormat.JsSecondBlockIsMetadata | create-plugin-tid.py:71-76 | a second marker pair opens metadata again: its fields overwrite the first block's, and no marker line or field line reaches the body |
| Sources.ParsedByExtension | create-plugin-tid.py:157-160 | a file whose path ends in ".js" is parsed by the dialect-B parser, and any other file by the dialect-A parser |
| Sources.Parse | create-plugin-tid.py:157-160 | either dialect gives a non-empty record with distinct keys that has "text" |
| Sources.ReadStrict | create-plugin-tid.py:21-29 | the build of the .tid plugin gets a record exactly when the file exists and can be read, and otherwise stops, naming the path and whether it was missing |
| Sources.ReadSoft | convert-to-json.py:22-30 | the JSON build gets a record exactly when the file can be read, and None otherwise |
| Sources.StrictAndSoftAgree | convert-to-json.py:22-44 | both scripts' readers accept the same files and produce the same record from them |
| Paths.Name | convert-to-json.py:102 | the name is the suffix of the path after its last slash and holds no slash |
| Paths.Stem | convert-to-json.py:102 | the stem is a prefix of the name and is non-empty when the name is |
| Paths.StemOfFileName | convert-to-json.py:102 | the stem of `dir/base.ext` is `base`, whatever the directory |
| Sorting.Sort | convert-to-json.py:99 | the result is sorted by code point and is a permutation of the input |
| Sorting.SortedUnique | convert-to-json.py:99 | two sorted permutations of the same strings are equal |
| Sorting.SortIgnoresOrder | convert-to-json.py:99 | sorting gives the same list whatever order the input arrived in |
| PluginTid.Gather | create-plugin-tid.py:152-166 | the source loop fails exactly when some listed file exists but cannot be read, naming such a file; otherwise it reports exactly the missing paths and the untitled files, with titles distinct |
| PluginTid.GatherIsPutAll | create-plugin-tid.py:162-164 | the title map is the dict built from the (title, record) pairs of the titled sources in list order |
| PluginTid.GatherKeepsLastTitled | create-plugin-tid.py:162-164 | a title maps to the record of the last listed source that carries it |
| PluginTid.GatherStopsAtFirstUnreadable | create-plugin-tid.py:152-160 | the run ends at the first unreadable file in list order, whatever comes after it |
| PluginTid.FillHeaders | create-plugin-tid.py:176-183 | the header template fills exactly when plugin.info has every key it reads, line by line in template order; otherwise it names a missing key |
| PluginTid.FillHeadersFirstMissing | create-plugin-tid.py:176-183 | the KeyError names the first key in template order that plugin.info lacks |
| PluginTid.TemplateKeys | create-plugin-tid.py:176-183 | the header block has eight lines, all taken from plugin.info except a fixed "type: application/json" |
| PluginTid.PluginHeadersFilled | create-plugin-tid.py:176-183 | the header block can be filled exactly when plugin.info has all seven keys it reads |
| PluginTid.PluginHeadersShape | create-plugin-tid.py:176-183 | the filled header block has the eight keys in fixed order, distinct, with type "application/json" |
| PluginTid.Build | create-plugin-tid.py:137-189 | the run fails on a missing or invalid plugin.info, on an unreadable source, and on missing files (naming exactly those); on success every source was readable, the title map is the dict built from the titled records in list order, and the output is the header block followed by the serialised title map |
| PluginTid.MissingFilesFirst | create-plugin-tid.py:152-172 | when every existing source can be read but some source is missing, the run fails with the missing files whatever plugin.info holds, before any of its keys is read |
| PluginTid.BuildSucceeds | create-plugin-tid.py:137-189 | a JSON-object plugin.info with all seven keys and readable sources always gives a written plugin |
| PluginTid.PluginOutputRoundTrip | create-plugin-tid.py:174-189 | reading the written plugin back as a dialect-A tiddler gives the eight headers in order and the serialised title map as "text" |
| PluginJson.ProcessingOrder | convert-to-json.py:95-111 | all .tid files come first in sorted order, then all .js files in sorted order, each tagged with its parser; the first part holds exactly the .tid files and the second exactly the .js files, counted with multiplicity |
| PluginJson.OrderCoversFiles | convert-to-json.py:95-111 | a path is visited exactly when one of the two globs returned it |
| PluginJson.KeyOf | convert-to-json.py:102 | a record is keyed by its "title" field when it has one, even an empty one, and by its file's stem otherwise |
| PluginJson.Collect | convert-to-json.py:99-117 | keys stay distinct, every unreadable file is reported, and only unreadable files are reported |
| PluginJson.CollectHasKey | convert-to-json.py:99-117 | every readable file's key is present in the result |
| PluginJson.CollectIsPutAll | convert-to-json.py:99-117 | the result is the dict built from the (key, record) pairs of the readable files in processing order |
| PluginJson.CollectKeepsLast | convert-to-json.py:99-117 | a key maps to the record of the last readable file that carries it |
| PluginJson.JsWinsOverTid | convert-to-json.py:99-117 | a .js file's record replaces any .tid record with the same key; a .tid record survives only when no .js file has that key |
| PluginJson.UntitledKeyedByStem | convert-to-json.py:102 | a record without a "title" field is keyed by its file's stem |
| PluginJson.CollectEmpty | convert-to-json.py:124-126 | no record is collected exactly when no file could be read |
| PluginJson.Bundle | convert-to-json.py:128-130 | the written object has the single key "tiddlers", holding the title map |
| PluginJson.Convert | convert-to-json.py:90-130 | the run fails exactly when none of the globbed files can be read; otherwise it writes under the single key "tiddlers" the non-empty dict built from the (key, record) pairs of the readable files in processing order |
| PluginJson.ConvertIgnoresGlobOrder | convert-to-json.py:95-111 | the output does not depend on the order in which glob lists the files |
| CloudflareSaver.BlankIsAllSpace | plugins/collaborative-blog/tiddlers/cloudflare-saver.js:43 | the endpoint counts as blank exactly when it is empty or all whitespace |
| CloudflareSaver.CanSave | plugins/collaborative-blog/tiddlers/cloudflare-saver.js:241-245 | `canSave` holds exactly when `save` would accept a "save" request, and likewise an "autosave" one |
| CloudflareSaver.TimeoutMs | plugins/collaborative-blog/tiddlers/cloudflare-saver.js:55 | the timeout is a whole number of seconds of at least 5; an unparsable or zero setting gives 30 s; a setting of 5 or more is used as is; any other non-zero setting is raised to 5 s |
| CloudflareSaver.LoadConfig | plugins/collaborative-blog/tiddlers/cloudflare-saver.js:53-60 | notifications and auto-retry are on unless their tiddler exists with a text other than "yes"; remembering and debug are on only when their tiddler exists with the text "yes"; the timeout is the timeout rule applied to the tiddler's text, or to "30" when it is missing |
| CloudflareSaver.BeginSave | plugins/collaborative-blog/tiddlers/cloudflare-saver.js:35-79 | save declines exactly when the saver is disabled, the endpoint is blank or the method is not save/autosave; otherwise it sends with a non-empty password or cancels with "Save cancelled by user"; without a remembered password it sends exactly when the prompt answer is non-empty, and sends that answer; with remembering on, the password sent is the one stored afterwards; the session changes only by remembering the typed password |
| CloudflareSaver.RememberedPasswordSkipsPrompt | plugins/collaborative-blog/tiddlers/cloudflare-saver.js:68-69 | with remembering on and a stored password, the stored password is sent whatever the prompt would have answered |
| CloudflareSaver.ClearedPasswordPrompts | plugins/collaborative-blog/tiddlers/cloudflare-saver.js:26-28 | after the clear-password event an accepted save with remembering on prompts again: it sends and stores a non-empty answer, and cancels with nothing stored otherwise |
| CloudflareSaver.ErrorMessage | plugins/collaborative-blog/tiddlers/cloudflare-saver.js:145-180 | 401, 429, 413 and 409 give their fixed texts ("Authentication failed. Check your password.", "Rate limit exceeded. Wait before retrying.", "Content too large. TiddlyWiki exceeds maximum size.", "Conflict detected. Another save may be in progress."); any other status gives a message starting "Save failed" |
| CloudflareSaver.RawTextShown | plugins/collaborative-blog/tiddlers/cloudflare-saver.js:145-166 | a non-JSON response text shorter than 200 characters gives "Save failed: HTTP", the status, the status text and " - " followed by that text |
| CloudflareSaver.JsonErrorAndResetShown | plugins/collaborative-blog/tiddlers/cloudflare-saver.js:145-162 | a JSON body with an error and a reset time gives "Save failed: HTTP", the status, the status text, " - " and the error, then " (retry in <resetIn> seconds)" |
| CloudflareSaver.ResetInShown | plugins/collaborative-blog/tiddlers/cloudflare-saver.js:153-162 | a non-empty JSON reset time always ends the message as " (retry in <resetIn> seconds)", with or without an error field |
| CloudflareSaver.ErrorMessageShowsStatus | plugins/collaborative-blog/tiddlers/cloudflare-saver.js:145-151 | for a non-zero status without a fixed message, the message starts "Save failed: HTTP " followed by the status in decimal |
| CloudflareSaver.StatusZeroHidesStatusText | plugins/collaborative-blog/tiddlers/cloudflare-saver.js:146-151 | status 0 shows neither a status nor a status text |
| CloudflareSaver.TimeoutMessage | plugins/collaborative-blog/tiddlers/cloudflare-saver.js:134 | a timed-out request is reported as plain "Save failed" |
| CloudflareSaver.LongRawTextDropped | plugins/collaborative-blog/tiddlers/cloudflare-saver.js:163-166 | a response body of 200 characters or more that is not JSON adds nothing to the message |
| CloudflareSaver.JsonErrorShown | plugins/collaborative-blog/tiddlers/cloudflare-saver.js:154-162 | a JSON body with a non-empty error and no reset time ends the message with " - " and that error |
| CloudflareSaver.FixedMessageIgnoresResponse | plugins/collaborative-blog/tiddlers/cloudflare-saver.js:171-180 | for 401, 429, 413 and 409 the message depends on the status alone |
| CloudflareSaver.RetryRule | plugins/collaborative-blog/tiddlers/cloudflare-saver.js:191 | another attempt follows exactly when auto-retry is on, fewer than three retries were made, and the status is neither 401 nor 429 |
| CloudflareSaver.RetryDelay | plugins/collaborative-blog/tiddlers/cloudflare-saver.js:192 | the delay lies between 1 s and 10 s, and for the first four retries it is 1000·2ⁿ ms |
| CloudflareSaver.RetryDelayCapped | plugins/collaborative-blog/tiddlers/cloudflare-saver.js:192 | from the fifth retry on, the delay is the 10 s cap |
| CloudflareSaver.RetryDelayMonotone | plugins/collaborative-blog/tiddlers/cloudflare-saver.js:192 | a later retry never waits less than an earlier one |
| CloudflareSaver.GiveUp | plugins/collaborative-blog/tiddlers/cloudflare-saver.js:199-203 | giving up sends no request, clears no session and ends with the error callback |
| CloudflareSaver.Failed | plugins/collaborative-blog/tiddlers/cloudflare-saver.js:171-173 | a failed attempt is one request, and it clears the session exactly when the status is 401 |
| CloudflareSaver.Perform | plugins/collaborative-blog/tiddlers/cloudflare-saver.js:90-208 | an attempt sequence starts with a request at its retry count, makes at least one request, and ends with exactly one callback, which comes last |
| CloudflareSaver.PerformRequests | plugins/collaborative-blog/tiddlers/cloudflare-saver.js:191-198 | a run makes at most one request more than the retries it has left (so at most four from the first attempt), and exactly one once retries are used up or turned off |
| CloudflareSaver.RefusalNotRetried | plugins/collaborative-blog/tiddlers/cloudflare-saver.js:191 | a 401 or 429 response ends the run after that one request with an error callback, whatever retries are left |
| CloudflareSaver.PerformSucceeds | plugins/collaborative-blog/tiddlers/cloudflare-saver.js:114-128 | the callback reports success exactly when the last attempt got an ok response |
| CloudflareSaver.PerformCallback | plugins/collaborative-blog/tiddlers/cloudflare-saver.js:114-206 | the callback gets null when the last attempt succeeded, and otherwise the message `_handleSaveError` builds for that attempt's failure |
| CloudflareSaver.PerformWaits | plugins/collaborative-blog/tiddlers/cloudflare-saver.js:191-198 | a run waits once between consecutive attempts and never after the last; before attempt n + 1 it waits the backoff delay of retry n |
| CloudflareSaver.UnauthorizedClearsSession | plugins/collaborative-blog/tiddlers/cloudflare-saver.js:171-173 | the stored password is cleared exactly when the last attempt was refused with 401 |
| CloudflareSaver.Save | plugins/collaborative-blog/tiddlers/cloudflare-saver.js:31-88 | `save` returns true exactly when it sends; a declined save does nothing; a sent save makes one to four requests (one without auto-retry) and ends with one callback |
| CloudflareSaver.IncrementStat | plugins/collaborative-blog/tiddlers/cloudflare-saver.js:210-216 | the counter tiddler reads back as its previous value plus one, counting from 0 when it is missing or unparsable |
| TestAction.RefusedDetail | plugins/collaborative-blog/tiddlers/cloudflare-test-action.js:97-103 | a non-empty JSON error replaces the status line |
| TestAction.RefusedDetailShowsStatus | plugins/collaborative-blog/tiddlers/cloudflare-test-action.js:98 | without a JSON error, the detail is "HTTP ", the status in decimal, then a space and the status text (the space stays when the status text is empty) |
| TestAction.ReplyAlert | plugins/collaborative-blog/tiddlers/cloudflare-test-action.js:85-131 | an ok reply gives a success alert; any other reply gives an error alert starting "Test failed", a blank line and "Error: " |
| TestAction.ReplyAlertReports | plugins/collaborative-blog/tiddlers/cloudflare-test-action.js:85-131 | a refused request reports its JSON error or HTTP status with the server checklist; a timeout reports "Request timeout" and any other rejection its message, both with the network checklist; an ok reply shows, right after "Commit SHA: ", the commit when it is a non-empty string and "N/A" otherwise |
| TestAction.CommitText | plugins/collaborative-blog/tiddlers/cloudflare-test-action.js:92 | the commit when it is a non-empty string, "N/A" when it is missing or empty |
| TestAction.SuccessShowsCommit | plugins/collaborative-blog/tiddlers/cloudflare-test-action.js:91-93 | the success report is the fixed head ending "Commit SHA: ", the commit text, then the fixed closing sentence; the commit or "N/A" reads back from it |
| TestAction.OkAlertShowsCommit | plugins/collaborative-blog/tiddlers/cloudflare-test-action.js:88-94 | an ok reply's alert shows the commit, or "N/A" when there is none, right after "Commit SHA: " |
| TestAction.FailedMessageParts | plugins/collaborative-blog/tiddlers/cloudflare-test-action.js:104-124 | a failure report starts with its head, then the error detail, and ends with its checklist; with the same checklist, different details give different reports |
| TestAction.RefusedAlertParts | plugins/collaborative-blog/tiddlers/cloudflare-test-action.js:96-113 | a refused request's report carries its detail (the JSON error, else the HTTP status) right after the failure heading and ends with the server checklist |
| TestAction.RejectedAlertParts | plugins/collaborative-blog/tiddlers/cloudflare-test-action.js:115-131 | a rejected request's report carries the rejection's message right after the failure heading and ends with the network checklist |
| TestAction.InvokeAction | plugins/collaborative-blog/tiddlers/cloudflare-test-action.js:34-134 | the action always returns true; it sends a request exactly when the saver is enabled, the endpoint is not blank and a password was typed, with the saver's timeout and retry count 0; it raises the not-enabled or no-endpoint alert otherwise, and shows the saving notice then the settled notice only when it sends |
| TestAction.TestAgreesWithSave | plugins/collaborative-blog/tiddlers/cloudflare-test-action.js:38-66 | the test sends exactly when a save with remembering off would, with the same password and timeout |
| TestAction.InfoLooksLikeDefault | plugins/collaborative-blog/tiddlers/cloudflare-test-action.js:139-153 | an info alert has the colours of an alert of unknown type and differs only in its title |
| TestAction.ParagraphsOfMessage | plugins/collaborative-blog/tiddlers/cloudflare-test-action.js:157 | every paragraph of the alert is a non-empty stripped line |
| TestAction.NormalisedLines | plugins/collaborative-blog/tiddlers/cloudflare-test-action.js:157 | the alert's message lines alternate between a paragraph and a single empty line, starting and ending with a paragraph |
| TestAction.NormaliseIdempotent | plugins/collaborative-blog/tiddlers/cloudflare-test-action.js:157 | normalising an already normalised message changes nothing |
| TestAction.ShowAlert | plugins/collaborative-blog/tiddlers/cloudflare-test-action.js:136-171 | the tiddler written has distinct fields, the fixed result title, type text/vnd.tiddlywiki and the modal title of the alert's type; its text is exactly the box and heading, then the normalised message, then the closing of the box |
| TestAction.ShownColours | plugins/collaborative-blog/tiddlers/cloudflare-test-action.js:153 | the modal's text, which ShowAlert writes as the tiddler's text, opens the box with the background shade and then the border shade of the alert's type |
| TestAction.ShadesOfType | plugins/collaborative-blog/tiddlers/cloudflare-test-action.js:141-153 | a success is drawn in the green shades, an error in the red ones, and any other type (info included) in the blue ones |

## Left out

- File and console I/O is not modelled: `open`, `glob.glob`, `Path.exists`, `print`, `sys.exit` and the output writes. The file system is a map from path to content. A path absent from the map does not exist; a path mapped to None exists but cannot be read; otherwise the map holds the text a text-mode read returns, after newline translation has turned "\r\n" and a lone "\r" into "\n". The glob results are inputs.
- Failures while writing the output files (`create-plugin-tid.py:185-192`, `convert-to-json.py:132-137`) are not modelled.
- `json.load`, `json.dumps` and `json.dump` are not modelled:
  - `plugin.info` arrives already decoded, as missing, invalid or an object;
  - the serialisation of the title map is a function parameter;
  - `PluginJson` stops at the object it writes.
- A `plugin.info` that is valid JSON but not an object, or whose values are not strings, is not modelled. Its values are given already rendered as the f-string renders them.
- Whitespace for `strip()` and `trim()` is the ASCII set: space, tab, newline, vertical tab, form feed and carriage return. Unicode spaces are not modelled.
- Paths.Stem: follows the suffix rule of Python up to 3.13. A trailing dot is not a suffix there; Python 3.14 changed this.
- `JSON.parse` is not modelled; its outcome is an input:
  - a body that does not parse or parses to null is `NotJson`;
  - one that parses to an object gives its `error` and `resetIn` fields, already rendered as text.
  - The message treats an empty rendered field as absent, which matches JavaScript truthiness for strings. It does not match for the number 0 or `false`, which render to non-empty text but are falsy. That case is not modelled.
- `parseInt` is a function parameter. Its result, an integer or None for NaN, is all the model uses.
- CloudflareSaver.LongRawTextDropped: `responseText.length` counts UTF-16 code units, and the model counts characters. The two agree on text without characters outside the Basic Multilingual Plane.
- Strings.IntToStringRoundTrip: JavaScript numbers lose integer precision above 2^53, and `String` switches to exponent notation from 1e21. The model's integers are exact and always rendered in plain decimal.
- CloudflareSaver.IncrementStat: for the same reason, a counter past 2^53 does not read back as its previous value plus one in the browser.
- `Math.pow` and `Math.min` are computed on exact integers. Their floating-point results are exact for these small values.
- The timer, `AbortController`, `fetch` and `prompt` are not modelled. The prompt's answer is an input. How each attempt settles is an input, indexed by retry count.
- The request payload is not modelled: the wiki text, `renderTiddler`'s output and the ISO timestamp.
- Debug logging is not modelled, including the `willRetry` value it prints (`cloudflare-saver.js:182-188`). The notifier calls of the saver are not modelled either.
- `_updateLastSave` (`cloudflare-saver.js:219-227`) is not modelled: it only stamps the current time and copies the status and message.
- An exception thrown by the save callback inside `_performSave`'s `try` would re-enter the error path. The model assumes the callback returns normally.
- For the test action, a `commit` value that is not a string is not modelled.
- `render`, `execute` and `refresh` of the test widget are not modelled; they do nothing.
- CloudflareSaver.Save: each run is assumed to finish before the next `save` call. In the saver, `save` returns before the request settles (`cloudflare-saver.js:86-87`) and a retry comes back through a timer (`cloudflare-saver.js:196-198`), so overlapping runs share the session password, and a later save can read it before a pending 401 clears it (`cloudflare-saver.js:171-172`). Interleaved runs are not modelled.
- `$tw.modal.display` is not modelled. `ShowAlert` gives the tiddler it writes.

=== FILE: assoc.dfy ===
/** Python's insertion-ordered dict as an association list: assigning to a
    present key replaces its value where it stands, assigning to a new key
    appends it. */
module Assoc {
  import opened Wrappers

  type Assoc<V> = seq<(string, V)>

  function Keys<V>(a: Assoc<V>): (ks: seq<string>)
    ensures |ks| == |a|
    ensures forall i :: 0 <= i < |a| ==> ks[i] == a[i].0
  {
    if |a| == 0 then [] else [a[0].0] + Keys(a[1..])
  }

  /** No key appears twice, as in a dict. */
  predicate UniqueKeys<V>(a: Assoc<V>) {
    forall i, j :: 0 <= i < j < |a| ==> a[i].0 != a[j].0
  }

  /** dict.get(k): the value stored under k, if any. */
  function Get<V>(a: Assoc<V>, k: string): (r: Option<V>)
    ensures r.Some? <==> k in Keys(a)
  {
    if |a| == 0 then None
    else if a[0].0 == k then Some(a[0].1)
    else Get(a[1..], k)
  }

  /** In a dict the value stored under the i-th key is the i-th value. */
  lemma {:induction false} GetAt<V>(a: Assoc<V>, i: nat)
    requires i < |a| && UniqueKeys(a)
    ensures Get(a, a[i].0) == Some(a[i].1)
  {
    if i > 0 {
      UniqueCons(a);
      assert a[1..][i - 1] == a[i];
      GetAt(a[1..], i - 1);
    }
  }

  /** `d[k] = v`. */
  function Put<V>(a: Assoc<V>, k: string, v: V): (r: Assoc<V>)
    ensures Get(r, k) == Some(v)
    ensures forall j :: j != k ==> Get(r, j) == Get(a, j)
    ensures Keys(r) == if k in Keys(a) then Keys(a) else Keys(a) + [k]
    ensures k !in Keys(a) ==> r == a + [(k, v)]
    ensures UniqueKeys(a) ==> UniqueKeys(r)
  {
    if |a| == 0 then [(k, v)]
    else if a[0].0 == k then
      PutHere(a, k, v);
      [(k, v)] + a[1..]
    else
      var tail := Put(a[1..], k, v);
      PutThereGet(a, k, v, tail);
      PutThereKeys(a, k, v, tail);
      PutThereUnique(a, k, tail);
      [a[0]] + tail
  }

  /** Assigning to the first key replaces its value and nothing else. */
  lemma PutHere<V>(a: Assoc<V>, k: string, v: V)
    requires |a| > 0 && a[0].0 == k
    ensures var r := [(k, v)] + a[1..];
      && Get(r, k) == Some(v)
      && (forall j :: j != k ==> Get(r, j) == Get(a, j))
      && Keys(r) == Keys(a)
      && (UniqueKeys(a) ==> UniqueKeys(r))
  {
    var r := [(k, v)] + a[1..];
    assert r[1..] == a[1..];
  }

  /** Assigning past the first entry: lookups. */
  lemma PutThereGet<V>(a: Assoc<V>, k: string, v: V, tail: Assoc<V>)
    requires |a| > 0 && a[0].0 != k
    requires Get(tail, k) == Some(v)
    requires forall j :: j != k ==> Get(tail, j) == Get(a[1..], j)
    ensures Get([a[0]] + tail, k) == Some(v)
    ensures forall j :: j != k ==> Get([a[0]] + tail, j) == Get(a, j)
  {
    assert ([a[0]] + tail)[1..] == tail;
  }

  /** Assigning past the first entry: the key sequence. */
  lemma PutThereKeys<V>(a: Assoc<V>, k: string, v: V, tail: Assoc<V>)
    requires |a| > 0 && a[0].0 != k
    requires Keys(tail) == if k in Keys(a[1..]) then Keys(a[1..]) else Keys(a[1..]) + [k]
    requires k !in Keys(a[1..]) ==> tail == a[1..] + [(k, v)]
    ensures Keys([a[0]] + tail) == if k in Keys(a) then Keys(a) else Keys(a) + [k]
    ensures k !in Keys(a) ==> [a[0]] + tail == a + [(k, v)]
  {
    KeysCons(a[0], a[1..]);
    KeysCons(a[0], tail);
    assert [a[0]] + a[1..] == a;
    if k !in Keys(a[1..]) {
      PutThereFresh(a, k, v);
    }
  }

  lemma KeysCons<V>(x: (string, V), a: Assoc<V>)
    ensures Keys([x] + a) == [x.0] + Keys(a)
  {
    assert ([x] + a)[1..] == a;
  }

  lemma PutThereFresh<V>(a: Assoc<V>, k: string, v: V)
    requires |a| > 0
    ensures [a[0].0] + (Keys(a[1..]) + [k]) == ([a[0].0] + Keys(a[1..])) + [k]
    ensures [a[0]] + (a[1..] + [(k, v)]) == a + [(k, v)]
  {
    assert [a[0]] + a[1..] == a;
  }

  /** Assigning past the first entry keeps keys distinct. */
  lemma PutThereUnique<V>(a: Assoc<V>, k: string, tail: Assoc<V>)
    requires |a| > 0 && a[0].0 != k
    requires UniqueKeys(a[1..]) ==> UniqueKeys(tail)
    requires forall j :: j in Keys(tail) ==> j in Keys(a[1..]) || j == k
    ensures UniqueKeys(a) ==> UniqueKeys([a[0]] + tail)
  {
    if UniqueKeys(a) {
      UniqueCons(a);
      UniqueConsBack(a[0], tail);
    }
  }

  lemma PutKeepsKeys<V>(a: Assoc<V>, k: string, v: V, j: string)
    requires j in Keys(a)
    ensures j in Keys(Put(a, k, v))
  {
    assert Get(a, j).Some?;
    if j != k {
      assert Get(Put(a, k, v), j) == Get(a, j);
    }
  }

  /** Put works in place: every entry is the assigned pair or the entry that
      stood at that position before. */
  lemma {:induction false} PutInPlace<V>(a: Assoc<V>, k: string, v: V)
    ensures forall i :: 0 <= i < |Put(a, k, v)| ==> Put(a, k, v)[i] == (k, v) || (i < |a| && Put(a, k, v)[i] == a[i])
  {
    var r := Put(a, k, v);
    if |a| > 0 && a[0].0 == k {
      assert r == [(k, v)] + a[1..];
      forall i | 0 < i < |r|
        ensures r[i] == a[i]
      {
        assert r[i] == a[1..][i - 1];
      }
    } else if |a| > 0 {
      var tail := Put(a[1..], k, v);
      assert r == [a[0]] + tail;
      PutInPlace(a[1..], k, v);
      forall i | 0 < i < |r|
        ensures r[i] == (k, v) || (i < |a| && r[i] == a[i])
      {
        assert r[i] == tail[i - 1];
        assert i - 1 < |a[1..]| ==> a[1..][i - 1] == a[i];
      }
    }
  }

  lemma UniqueCons<V>(a: Assoc<V>)
    requires |a| > 0 && UniqueKeys(a)
    ensures UniqueKeys(a[1..]) && a[0].0 !in Keys(a[1..])
  {
    forall i | 0 <= i < |a| - 1
      ensures Keys(a[1..])[i] != a[0].0
    {
      assert a[1..][i] == a[i + 1];
    }
  }

  lemma UniqueConsBack<V>(x: (string, V), a: Assoc<V>)
    requires UniqueKeys(a) && x.0 !in Keys(a)
    ensures UniqueKeys([x] + a)
  {
    var r := [x] + a;
    forall i, j | 0 <= i < j < |r|
      ensures r[i].0 != r[j].0
    {
      assert r[j] == a[j - 1];
      if i > 0 {
        assert r[i] == a[i - 1];
      } else {
        assert Keys(a)[j - 1] == a[j - 1].0;
      }
    }
  }

  /** Assigning each pair in turn, left to right. */
  function PutAll<V>(a: Assoc<V>, kvs: seq<(string, V)>): Assoc<V>
  {
    if |kvs| == 0 then a
    else
      var last := kvs[|kvs| - 1];
      Put(PutAll(a, kvs[..|kvs| - 1]), last.0, last.1)
  }

  /** The last assignment is made last. */
  lemma PutAllSnoc<V>(a: Assoc<V>, kvs: seq<(string, V)>, kv: (string, V))
    ensures PutAll(a, kvs + [kv]) == Put(PutAll(a, kvs), kv.0, kv.1)
  {
    assert (kvs + [kv])[..|kvs|] == kvs;
  }

  /** Reference reading of a sequence of assignments: the value of the last
      pair whose key is k. */
  function LastValue<V>(kvs: seq<(string, V)>, k: string): Option<V>
  {
    if |kvs| == 0 then None
    else if kvs[|kvs| - 1].0 == k then Some(kvs[|kvs| - 1].1)
    else LastValue(kvs[..|kvs| - 1], k)
  }

  /** After a run of assignments a key holds the last value assigned to it,
      or what it held before if it was never assigned. */
  lemma {:induction false} PutAllGet<V>(a: Assoc<V>, kvs: seq<(string, V)>, k: string)
    ensures Get(PutAll(a, kvs), k) == if LastValue(kvs, k).Some? then LastValue(kvs, k) else Get(a, k)
  {
    if |kvs| > 0 {
      PutAllGet(a, kvs[..|kvs| - 1], k);
    }
  }

  /** Assignments keep keys unique. */
  lemma {:induction false} PutAllUnique<V>(a: Assoc<V>, kvs: seq<(string, V)>)
    requires UniqueKeys(a)
    ensures UniqueKeys(PutAll(a, kvs))
  {
    if |kvs| > 0 {
      PutAllUnique(a, kvs[..|kvs| - 1]);
    }
  }

  /** Assigning distinct fresh keys appends them in order. */
  lemma {:induction false} PutAllFresh<V>(a: Assoc<V>, kvs: seq<(string, V)>)
    requires UniqueKeys(a + kvs)
    ensures PutAll(a, kvs) == a + kvs
  {
    if |kvs| > 0 {
      var init := kvs[..|kvs| - 1];
      var last := kvs[|kvs| - 1];
      assert a + kvs == (a + init) + [last];
      assert UniqueKeys(a + init) by {
        forall i, j | 0 <= i < j < |a + init|
          ensures (a + init)[i].0 != (a + init)[j].0
        {
          assert (a + init)[i] == (a + kvs)[i] && (a + init)[j] == (a + kvs)[j];
        }
      }
      PutAllFresh(a, init);
      assert last.0 !in Keys(a + init) by {
        forall i | 0 <= i < |a + init|
          ensures Keys(a + init)[i] != last.0
        {
          assert (a + init)[i] == (a + kvs)[i];
          assert last == (a + kvs)[|a + kvs| - 1];
        }
      }
    }
  }

  /** Assigning a sequence split in two is assigning the halves in turn. */
  lemma {:induction false} PutAllConcat<V>(a: Assoc<V>, x: seq<(string, V)>, y: seq<(string, V)>)
    ensures PutAll(a, x + y) == PutAll(PutAll(a, x), y)
    decreases |y|
  {
    if |y| == 0 {
      assert x + y == x;
    } else {
      assert (x + y)[..|x + y| - 1] == x + y[..|y| - 1];
      assert (x + y)[|x + y| - 1] == y[|y| - 1];
      PutAllConcat(a, x, y[..|y| - 1]);
    }
  }

  /** The last assignment to k in x + y is in y whenever y assigns k. */
  lemma {:induction false} LastValueConcat<V>(x: seq<(string, V)>, y: seq<(string, V)>, k: string)
    ensures LastValue(x + y, k) == if LastValue(y, k).Some? then LastValue(y, k) else LastValue(x, k)
    decreases |y|
  {
    if |y| == 0 {
      assert x + y == x;
    } else {
      assert (x + y)[..|x + y| - 1] == x + y[..|y| - 1];
      assert (x + y)[|x + y| - 1] == y[|y| - 1];
      LastValueConcat(x, y[..|y| - 1], k);
    }
  }

  lemma KeysAppend<V>(a: Assoc<V>, b: Assoc<V>)
    ensures Keys(a + b) == Keys(a) + Keys(b)
  {
    assert forall i :: 0 <= i < |a + b| ==> Keys(a + b)[i] == (Keys(a) + Keys(b))[i];
  }

  /** Every key after a run of assignments was either there before or
      assigned in the run. */
  lemma {:induction false} PutAllKeys<V>(a: Assoc<V>, kvs: seq<(string, V)>)
    ensures forall k :: k in Keys(PutAll(a, kvs)) ==> k in Keys(a) || k in Keys(kvs)
  {
    if |kvs| > 0 {
      var init := kvs[..|kvs| - 1];
      var last := kvs[|kvs| - 1];
      PutAllKeys(a, init);
      assert kvs == init + [last];
      KeysAppend(init, [last]);
      var before := PutAll(a, init);
      assert PutAll(a, kvs) == Put(before, last.0, last.1);
      forall k | k in Keys(PutAll(a, kvs))
        ensures k in Keys(a) || k in Keys(kvs)
      {
        if k != last.0 {
          assert k in Keys(before);
        }
      }
    }
  }
}

=== FILE: cloudflare_saver.dfy ===
/** The decision rules of the Cloudflare saver module: whether `save` takes a
    request at all, the timeout, the session password, the error message
    after a failed attempt, the retry-or-give-up decision with its backoff,
    and the stat counters. The browser, the network and the wiki store are
    inputs: what `prompt` answered, what each attempt returned, and the text
    of the configuration tiddlers. */
module CloudflareSaver {
  import opened Wrappers
  import opened Strings

  /** The configuration tiddlers the saver reads: title to text. */
  type Wiki = map<string, string>

  /** `wiki.getTiddlerText(title, fallback)`. */
  function GetText(wiki: Wiki, title: string, fallback: string): string {
    if title in wiki then wiki[title] else fallback
  }

  const ConfigPrefix: string := "$:/config/cloudflare-saver/"
  const EnabledTitle: string := ConfigPrefix + "enabled"
  const EndpointTitle: string := ConfigPrefix + "endpoint"
  const TimeoutTitle: string := ConfigPrefix + "timeout"
  const NotificationsTitle: string := ConfigPrefix + "notifications"
  const AutoRetryTitle: string := ConfigPrefix + "auto-retry"
  const RememberTitle: string := ConfigPrefix + "remember-password"
  const DebugTitle: string := ConfigPrefix + "debug"

  predicate Enabled(wiki: Wiki) {
    GetText(wiki, EnabledTitle, "no") == "yes"
  }

  function Endpoint(wiki: Wiki): string {
    GetText(wiki, EndpointTitle, "")
  }

  /** `!s || s.trim() === ''`. */
  predicate Blank(s: string) {
    s == "" || Strip(s) == ""
  }

  /** A blank endpoint is one made of whitespace only. */
  lemma BlankIsAllSpace(s: string)
    ensures Blank(s) <==> AllSpace(s)
  {
  }

  /** The three checks at the top of `save`, in order: enabled, endpoint set,
      a kind the saver handles. */
  predicate Accepts(wiki: Wiki, kind: string) {
    Enabled(wiki) && !Blank(Endpoint(wiki)) && (kind == "save" || kind == "autosave")
  }

  /** `canSave`: the first two of `save`'s checks. */
  function CanSave(wiki: Wiki): (ok: bool)
    ensures ok <==> Accepts(wiki, "save")
    ensures ok <==> Accepts(wiki, "autosave")
  {
    var enabled := GetText(wiki, EnabledTitle, "no") == "yes";
    var endpoint := GetText(wiki, EndpointTitle, "");
    enabled && endpoint != "" && Strip(endpoint) != ""
  }

  /** `Math.max(5, parseInt(text) || 30) * 1000`, with `parseInt` given as its
      result: None for NaN. */
  function TimeoutMs(parsed: Option<int>): (ms: int)
    ensures ms >= 5000 && ms % 1000 == 0
    ensures parsed.None? || parsed == Some(0) ==> ms == 30000
    ensures parsed.Some? && parsed.value >= 5 ==> ms == 1000 * parsed.value
    ensures parsed.Some? && parsed.value != 0 && parsed.value < 5 ==> ms == 5000
  {
    var seconds := if parsed.None? || parsed.value == 0 then 30 else parsed.value;
    (if seconds > 5 then seconds else 5) * 1000
  }

  datatype Config = Config(endpoint: string, timeoutMs: int, notifications: bool, autoRetry: bool,
                           rememberPassword: bool, debug: bool)

  /** The configuration object `save` builds, with JavaScript's `parseInt`
      as a parameter. */
  function LoadConfig(wiki: Wiki, parseInt: string -> Option<int>): (c: Config)
    ensures c.timeoutMs >= 5000
    ensures c.endpoint == Endpoint(wiki)
    ensures AutoRetryTitle !in wiki ==> c.autoRetry
    ensures NotificationsTitle !in wiki ==> c.notifications
    ensures RememberTitle !in wiki ==> !c.rememberPassword
    ensures DebugTitle !in wiki ==> !c.debug
    ensures TimeoutTitle !in wiki && parseInt("30") == Some(30) ==> c.timeoutMs == 30000
    ensures c.timeoutMs == TimeoutMs(parseInt(if TimeoutTitle in wiki then wiki[TimeoutTitle] else "30"))
    ensures c.notifications <==> NotificationsTitle !in wiki || wiki[NotificationsTitle] == "yes"
    ensures c.autoRetry <==> AutoRetryTitle !in wiki || wiki[AutoRetryTitle] == "yes"
    ensures c.rememberPassword <==> RememberTitle in wiki && wiki[RememberTitle] == "yes"
    ensures c.debug <==> DebugTitle in wiki && wiki[DebugTitle] == "yes"
  {
    Config(
      Endpoint(wiki),
      TimeoutMs(parseInt(GetText(wiki, TimeoutTitle, "30"))),
      GetText(wiki, NotificationsTitle, "yes") == "yes",
      GetText(wiki, AutoRetryTitle, "yes") == "yes",
      GetText(wiki, RememberTitle, "no") == "yes",
      GetText(wiki, DebugTitle, "no") == "yes")
  }

  // Session password

  /** The remembered password: null, or an answer that was not empty. */
  predicate ValidSession(session: Option<string>) {
    session.None? || session.value != ""
  }

  const CancelMessage: string := "Save cancelled by user"

  /** How `save` ends before any request, or the password it sends with. */
  datatype Start = Declined | Cancelled(message: string) | Sending(password: string)

  /** `save` up to the first request. `answer` is what `prompt` returns if it
      is asked (None when the dialog is dismissed). The result pairs the
      outcome with the session password afterwards. */
  function BeginSave(wiki: Wiki, kind: string, remember: bool, session: Option<string>, answer: Option<string>)
    : (r: (Start, Option<string>))
    ensures !Accepts(wiki, kind) ==> r == (Declined, session)
    ensures Accepts(wiki, kind) ==> !r.0.Declined?
    ensures r.0.Sending? ==> r.0.password != ""
    ensures r.0.Cancelled? ==> r.0.message == CancelMessage && r.1 == session
    ensures ValidSession(session) ==> ValidSession(r.1)
    ensures r.1 != session ==> remember && r.0.Sending? && r.1 == Some(r.0.password) && answer == r.1
    ensures r.0.Sending? && r.0.password != answer.GetOr("") ==> remember && session == Some(r.0.password)
    ensures Accepts(wiki, kind) && !(remember && session.Some? && session.value != "") ==>
      (r.0.Sending? <==> answer.Some? && answer.value != "")
      && (r.0.Sending? ==> r.0.password == answer.value)
    ensures r.0.Sending? && remember ==> r.1 == Some(r.0.password)
  {
    if !Accepts(wiki, kind) then (Declined, session)
    else if remember && session.Some? && session.value != "" then (Sending(session.value), session)
    else if answer.None? || answer.value == "" then (Cancelled(CancelMessage), session)
    else (Sending(answer.value), if remember then answer else session)
  }

  /** With rememberPassword on and a password remembered, no prompt is shown:
      what it would have answered makes no difference. */
  lemma RememberedPasswordSkipsPrompt(wiki: Wiki, kind: string, session: Option<string>,
                                      answer1: Option<string>, answer2: Option<string>)
    requires Accepts(wiki, kind) && session.Some? && ValidSession(session)
    ensures BeginSave(wiki, kind, true, session, answer1) == BeginSave(wiki, kind, true, session, answer2)
    ensures BeginSave(wiki, kind, true, session, answer1) == (Sending(session.value), session)
  {
  }

  /** The 'cloudflare-clear-password' event. */
  function ClearPassword(session: Option<string>): (r: Option<string>)
    ensures r.None? && ValidSession(r)
  {
    None
  }

  /** After the clear-password event the next accepted save asks again, even
      with remembering on: it sends and remembers a non-empty answer, and
      cancels on an empty or dismissed prompt, leaving nothing stored. */
  lemma ClearedPasswordPrompts(wiki: Wiki, kind: string, session: Option<string>, answer: Option<string>)
    requires Accepts(wiki, kind)
    ensures var r := BeginSave(wiki, kind, true, ClearPassword(session), answer);
      (answer.Some? && answer.value != "" ==> r == (Sending(answer.value), answer))
      && (answer.None? || answer.value == "" ==> r == (Cancelled(CancelMessage), None))
  {
  }

  // Error message

  /** What `JSON.parse(responseText)` gave: NotJson when parsing threw, or
      gave null so that reading `.error` threw as well; otherwise a value whose
      `error` and `resetIn` fields are given as the text a template literal
      renders, None when absent. An empty text is falsy and skipped. */
  datatype ErrorBody = NotJson | JsonBody(error: Option<string>, resetIn: Option<string>)

  /** ": HTTP <status>[ <statusText>]", only for a non-zero status. */
  function StatusPart(status: nat, statusText: string): string {
    if status == 0 then ""
    else ": HTTP " + NatToString(status) + (if statusText == "" then "" else " " + statusText)
  }

  /** What the response text adds: the JSON error and reset time, or the raw
      text when it is not JSON and shorter than 200 characters. */
  function DetailPart(responseText: string, body: ErrorBody): string {
    if responseText == "" then ""
    else match body
      case NotJson => if |responseText| < 200 then " - " + responseText else ""
      case JsonBody(error, resetIn) =>
        (if error.Some? && error.value != "" then " - " + error.value else "")
        + (if resetIn.Some? && resetIn.value != "" then " (retry in " + resetIn.value + " seconds)" else "")
  }

  const AuthFailedMessage: string := "Authentication failed. Check your password."
  const RateLimitMessage: string := "Rate limit exceeded. Wait before retrying."
  const TooLargeMessage: string := "Content too large. TiddlyWiki exceeds maximum size."
  const ConflictMessage: string := "Conflict detected. Another save may be in progress."

  /** The fixed messages that replace the built one for four statuses. */
  function FixedMessage(status: nat): Option<string> {
    if status == 401 then Some(AuthFailedMessage)
    else if status == 429 then Some(RateLimitMessage)
    else if status == 413 then Some(TooLargeMessage)
    else if status == 409 then Some(ConflictMessage)
    else None
  }

  const SaveFailed: string := "Save failed"

  /** The message `_handleSaveError` builds. */
  function ErrorMessage(status: nat, statusText: string, responseText: string, body: ErrorBody): (msg: string)
    ensures FixedMessage(status).None? ==> |SaveFailed| <= |msg| && msg[..|SaveFailed|] == SaveFailed
    ensures status == 401 ==> msg == AuthFailedMessage
    ensures status == 429 ==> msg == RateLimitMessage
    ensures status == 413 ==> msg == TooLargeMessage
    ensures status == 409 ==> msg == ConflictMessage
  {
    match FixedMessage(status)
    case Some(fixed) => fixed
    case None => SaveFailed + StatusPart(status, statusText) + DetailPart(responseText, body)
  }
  /** For a status other than the four with fixed messages, the message
      starts "Save failed: HTTP " followed by the status in decimal. */
  lemma ErrorMessageShowsStatus(status: nat, statusText: string, responseText: string, body: ErrorBody)
    requires status != 0 && FixedMessage(status).None?
    ensures var msg := ErrorMessage(status, statusText, responseText, body);
      var head := SaveFailed + ": HTTP ";
      var digits := NatToString(status);
      |head| + |digits| <= |msg| && msg[..|head|] == head
      && msg[|head|..|head| + |digits|] == digits && DigitsValue(digits) == status
  {
    var head := SaveFailed + ": HTTP ";
    var digits := NatToString(status);
    var suffix := if statusText == "" then "" else " " + statusText;
    var detail := DetailPart(responseText, body);
    assert StatusPart(status, statusText) == ": HTTP " + digits + suffix;
    var msg := SaveFailed + (": HTTP " + digits + suffix) + detail;
    assert msg == head + digits + (suffix + detail);
    assert msg[..|head|] == head;
    assert msg[|head|..|head| + |digits|] == digits;
    NatToStringRoundTrip(status);
  }

  /** With status 0 (a timeout or a network failure) the status text never
      shows: the message is "Save failed" plus whatever the response text
      adds. */
  lemma StatusZeroHidesStatusText(statusText: string, responseText: string, body: ErrorBody)
    ensures ErrorMessage(0, statusText, responseText, body) == SaveFailed + DetailPart(responseText, body)
  {
  }

  /** A timed-out attempt reports just "Save failed". */
  lemma TimeoutMessage(body: ErrorBody)
    ensures ErrorMessage(0, "Request timeout", "", body) == SaveFailed
  {
  }

  /** A non-JSON response text of 200 characters or more is left out. */
  lemma LongRawTextDropped(status: nat, statusText: string, responseText: string)
    requires |responseText| >= 200 && FixedMessage(status).None?
    ensures ErrorMessage(status, statusText, responseText, NotJson) == SaveFailed + StatusPart(status, statusText)
  {
  }

  /** A JSON `error` field is appended after " - ", the reset time after it. */
  lemma JsonErrorShown(status: nat, statusText: string, responseText: string, error: string)
    requires responseText != "" && error != "" && FixedMessage(status).None?
    ensures var msg := ErrorMessage(status, statusText, responseText, JsonBody(Some(error), None));
      var tail := " - " + error;
      |tail| <= |msg| && msg[|msg| - |tail|..] == tail
  {
    var tail := " - " + error;
    var msg := SaveFailed + StatusPart(status, statusText) + tail;
    assert ErrorMessage(status, statusText, responseText, JsonBody(Some(error), None)) == msg;
    assert msg[|msg| - |tail|..] == tail;
  }

  /** A short response text that is not JSON follows the status line after
      " - ". */
  lemma RawTextShown(status: nat, statusText: string, responseText: string)
    requires status != 0 && FixedMessage(status).None?
    requires statusText != "" && 0 < |responseText| < 200
    ensures ErrorMessage(status, statusText, responseText, NotJson)
      == "Save failed" + (": HTTP " + NatToString(status) + (" " + statusText)) + (" - " + responseText)
  {
    assert DetailPart(responseText, NotJson) == " - " + responseText;
  }

  /** A JSON body with both fields gives the status line, the error after
      " - ", then the reset time in parentheses. */
  lemma JsonErrorAndResetShown(status: nat, statusText: string, responseText: string, error: string, resetIn: string)
    requires status != 0 && FixedMessage(status).None?
    requires statusText != "" && responseText != "" && error != "" && resetIn != ""
    ensures ErrorMessage(status, statusText, responseText, JsonBody(Some(error), Some(resetIn)))
      == "Save failed" + (": HTTP " + NatToString(status) + (" " + statusText)) + (" - " + error)
         + (" (retry in " + resetIn + " seconds)")
  {
    var line := SaveFailed + StatusPart(status, statusText);
    var err := " - " + error;
    var reset := " (retry in " + resetIn + " seconds)";
    assert DetailPart(responseText, JsonBody(Some(error), Some(resetIn))) == err + reset;
    assert ErrorMessage(status, statusText, responseText, JsonBody(Some(error), Some(resetIn))) == line + (err + reset);
    AppendAssoc(line, err, reset);
  }

  /** A non-empty JSON `resetIn` always ends the message, with or without an
      error field and whatever the status line. */
  lemma ResetInShown(status: nat, statusText: string, responseText: string, error: Option<string>, resetIn: string)
    requires FixedMessage(status).None? && responseText != "" && resetIn != ""
    ensures EndsWith(ErrorMessage(status, statusText, responseText, JsonBody(error, Some(resetIn))),
                     " (retry in " + resetIn + " seconds)")
  {
    var line := SaveFailed + StatusPart(status, statusText);
    var err := if error.Some? && error.value != "" then " - " + error.value else "";
    var tail := " (retry in " + resetIn + " seconds)";
    assert DetailPart(responseText, JsonBody(error, Some(resetIn))) == err + tail;
    AppendAssoc(line, err, tail);
    SuffixOfAppend(line + err, tail);
  }

  lemma SuffixOfAppend(front: string, tail: string)
    ensures EndsWith(front + tail, tail)
  {
    assert (front + tail)[|front|..] == tail;
  }

  /** The four fixed messages replace everything else. */
  lemma FixedMessageIgnoresResponse(status: nat, t1: string, x1: string, b1: ErrorBody, t2: string, x2: string, b2: ErrorBody)
    requires status in {401, 409, 413, 429}
    ensures ErrorMessage(status, t1, x1, b1) == ErrorMessage(status, t2, x2, b2)
  {
  }

  // Retry decision

  function MaxRetries(autoRetry: bool): nat {
    if autoRetry then 3 else 0
  }

  /** Another attempt follows unless retries are used up or the server
      refused the password or rate-limited the caller. */
  predicate WillRetry(status: nat, retryCount: nat, autoRetry: bool) {
    retryCount < MaxRetries(autoRetry) && status != 401 && status != 429
  }

  /** Up to three retries with auto-retry on, none with it off, and never
      after a refused password or a rate limit. */
  lemma RetryRule(status: nat, retryCount: nat, autoRetry: bool)
    ensures WillRetry(status, retryCount, autoRetry) <==> autoRetry && retryCount < 3 && status != 401 && status != 429
  {
  }

  function Pow2(n: nat): (p: nat)
    ensures p >= 1
  {
    if n == 0 then 1 else 2 * Pow2(n - 1)
  }

  lemma {:induction false} Pow2Monotone(a: nat, b: nat)
    requires a <= b
    ensures Pow2(a) <= Pow2(b)
    decreases b
  {
    if a < b {
      Pow2Monotone(a, b - 1);
    }
  }

  /** `Math.min(1000 * Math.pow(2, retryCount), 10000)`. */
  function RetryDelay(retryCount: nat): (ms: nat)
    ensures 1000 <= ms <= 10000
    ensures retryCount <= 3 ==> ms == 1000 * Pow2(retryCount)
  {
    var d := 1000 * Pow2(retryCount);
    if d < 10000 then d else 10000
  }

  /** From the fifth attempt on the delay stays at the ten-second cap. */
  lemma RetryDelayCapped(retryCount: nat)
    requires retryCount >= 4
    ensures RetryDelay(retryCount) == 10000
  {
    Pow2Monotone(4, retryCount);
  }

  /** The delay never shrinks as the retry count grows. */
  lemma RetryDelayMonotone(a: nat, b: nat)
    requires a <= b
    ensures RetryDelay(a) <= RetryDelay(b)
  {
    Pow2Monotone(a, b);
  }

  // A whole save

  /** What one request came back with. */
  datatype Attempt =
    | Ok
    | HttpError(status: nat, statusText: string, responseText: string, body: ErrorBody)
    | Timeout
    | NetworkError(message: string, body: ErrorBody)

  /** The status `_performSave` hands to `_handleSaveError`: 0 when no
      response arrived. */
  function FailureStatus(a: Attempt): nat {
    if a.HttpError? then a.status else 0
  }

  /** The message `_handleSaveError` builds for a failed attempt. */
  function FailureText(a: Attempt): string
    requires !a.Ok?
  {
    match a
    case HttpError(s, t, x, b) => ErrorMessage(s, t, x, b)
    case Timeout => ErrorMessage(0, "Request timeout", "", NotJson)
    case NetworkError(m, b) => ErrorMessage(0, "Network error", m, b)
  }

  /** What the saver does, in order. */
  datatype Event =
    | Request(retryCount: nat)
    | Wait(ms: nat)
    | ClearSession
    | Stat(name: string)
    | Callback(error: Option<string>)

  /** How many requests a run sends. */
  function Requests(events: seq<Event>): nat {
    if |events| == 0 then 0 else (if events[0].Request? then 1 else 0) + Requests(events[1..])
  }

  lemma RequestsCons(e: Event, rest: seq<Event>)
    ensures Requests([e] + rest) == (if e.Request? then 1 else 0) + Requests(rest)
  {
    assert ([e] + rest)[1..] == rest;
  }

  lemma {:induction false} RequestsConcat(a: seq<Event>, b: seq<Event>)
    ensures Requests(a + b) == Requests(a) + Requests(b)
    decreases |a|
  {
    if |a| == 0 {
      assert a + b == b;
    } else {
      assert (a + b)[1..] == a[1..] + b;
      RequestsConcat(a[1..], b);
    }
  }

  /** The callback is called once, as the last thing a run does. */
  predicate CallbackLast(events: seq<Event>) {
    |events| > 0 && events[|events| - 1].Callback?
    && forall i :: 0 <= i < |events| - 1 ==> !events[i].Callback?
  }

  /** The events after a failed attempt that is not retried. */
  function GiveUp(msg: string): (tail: seq<Event>)
    ensures Requests(tail) == 0 && CallbackLast(tail)
    ensures tail[|tail| - 1] == Callback(Some(msg))
    ensures ClearSession !in tail
  {
    var tail := [Stat("failed-saves"), Callback(Some(msg))];
    RequestsCons(Stat("failed-saves"), [Callback(Some(msg))]);
    RequestsCons(Callback(Some(msg)), []);
    tail
  }

  /** A request that succeeded, and what follows it. */
  function Succeeded(retryCount: nat): (events: seq<Event>)
    ensures |events| >= 2 && events[0] == Request(retryCount)
    ensures Requests(events) == 1 && CallbackLast(events)
    ensures events[|events| - 1] == Callback(None)
    ensures ClearSession !in events
  {
    var tail := [Stat("successful-saves"), Callback(None)];
    RequestsCons(Request(retryCount), tail);
    RequestsCons(Stat("successful-saves"), [Callback(None)]);
    RequestsCons(Callback(None), []);
    [Request(retryCount)] + tail
  }

  /** A request that failed; a 401 also forgets the session password. */
  function Failed(retryCount: nat, status: nat): (head: seq<Event>)
    ensures |head| >= 1 && head[0] == Request(retryCount)
    ensures Requests(head) == 1
    ensures forall i :: 0 <= i < |head| ==> !head[i].Callback?
    ensures ClearSession in head <==> status == 401
  {
    if status == 401 then
      RequestsCons(Request(retryCount), [ClearSession]);
      RequestsCons(ClearSession, []);
      [Request(retryCount), ClearSession]
    else
      RequestsCons(Request(retryCount), []);
      [Request(retryCount)]
  }

  /** Events without a callback, followed by a run that ends in one. */
  function Then(prefix: seq<Event>, rest: seq<Event>): (events: seq<Event>)
    requires forall i :: 0 <= i < |prefix| ==> !prefix[i].Callback?
    requires CallbackLast(rest)
    ensures CallbackLast(events) && events[|events| - 1] == rest[|rest| - 1]
    ensures Requests(events) == Requests(prefix) + Requests(rest)
    ensures |prefix| > 0 ==> events[0] == prefix[0]
    ensures ClearSession in events <==> ClearSession in prefix || ClearSession in rest
  {
    var events := prefix + rest;
    RequestsConcat(prefix, rest);
    assert forall i :: 0 <= i < |prefix| ==> events[i] == prefix[i];
    assert forall i :: |prefix| <= i < |events| ==> events[i] == rest[i - |prefix|];
    events
  }

  /** `_performSave` from attempt `retryCount` on; `outcome(n)` is what
      attempt n comes back with. */
  function Perform(outcome: nat -> Attempt, autoRetry: bool, retryCount: nat): (events: seq<Event>)
    ensures |events| >= 2 && events[0] == Request(retryCount)
    ensures CallbackLast(events)
    ensures Requests(events) >= 1
    decreases if retryCount <= 3 then 3 - retryCount else 0
  {
    var a := outcome(retryCount);
    if a.Ok? then Succeeded(retryCount)
    else
      var status := FailureStatus(a);
      var head := Failed(retryCount, status);
      if WillRetry(status, retryCount, autoRetry) then
        assert retryCount < MaxRetries(autoRetry);
        var wait := head + [Wait(RetryDelay(retryCount))];
        RequestsConcat(head, [Wait(RetryDelay(retryCount))]);
        RequestsCons(Wait(RetryDelay(retryCount)), []);
        Then(wait, Perform(outcome, autoRetry, retryCount + 1))
      else
        Then(head, GiveUp(FailureText(a)))
  }

  /** The outcome of a call to `save`. */
  datatype SaveRun = SaveRun(returned: bool, events: seq<Event>, session: Option<string>)

  /** `save` followed by everything it sets off. */
  function Save(wiki: Wiki, kind: string, parseInt: string -> Option<int>, session: Option<string>,
                answer: Option<string>, outcome: nat -> Attempt): (r: SaveRun)
    ensures r.returned <==> BeginSave(wiki, kind, LoadConfig(wiki, parseInt).rememberPassword, session, answer).0.Sending?
    ensures !Accepts(wiki, kind) ==> r == SaveRun(false, [], session)
    ensures r.returned ==> CallbackLast(r.events) && 1 <= Requests(r.events) <= 4
    ensures r.returned && !LoadConfig(wiki, parseInt).autoRetry ==> Requests(r.events) == 1
    ensures !r.returned ==> Requests(r.events) == 0
    ensures ValidSession(session) ==> ValidSession(r.session)
  {
    PerformRequests(outcome, LoadConfig(wiki, parseInt).autoRetry, 0);
    var cfg := LoadConfig(wiki, parseInt);
    var (start, kept) := BeginSave(wiki, kind, cfg.rememberPassword, session, answer);
    match start
    case Declined => SaveRun(false, [], kept)
    case Cancelled(m) => SaveRun(false, [Callback(Some(m))], kept)
    case Sending(_) =>
      var events := Perform(outcome, cfg.autoRetry, 0);
      SaveRun(true, events, if ClearSession in events then None else kept)
  }

  /** The events of a retry: the failed request, the wait, then the next
      attempt's run. */
  lemma RetryShape(outcome: nat -> Attempt, autoRetry: bool, retryCount: nat)
    requires !outcome(retryCount).Ok?
    requires WillRetry(FailureStatus(outcome(retryCount)), retryCount, autoRetry)
    ensures var events := Perform(outcome, autoRetry, retryCount);
      var rest := Perform(outcome, autoRetry, retryCount + 1);
      Requests(events) == Requests(rest) + 1
      && events[|events| - 1] == rest[|rest| - 1]
      && (ClearSession in events <==> ClearSession in rest)
  {
    var status := FailureStatus(outcome(retryCount));
    var head := Failed(retryCount, status);
    var wait := head + [Wait(RetryDelay(retryCount))];
    RequestsConcat(head, [Wait(RetryDelay(retryCount))]);
    RequestsCons(Wait(RetryDelay(retryCount)), []);
    assert ClearSession !in wait;
  }

  /** The events when the attempt is the last: a success, or a failure that
      is not retried. */
  lemma FinalShape(outcome: nat -> Attempt, autoRetry: bool, retryCount: nat)
    requires outcome(retryCount).Ok? || !WillRetry(FailureStatus(outcome(retryCount)), retryCount, autoRetry)
    ensures var events := Perform(outcome, autoRetry, retryCount);
      var a := outcome(retryCount);
      Requests(events) == 1
      && (events[|events| - 1] == Callback(None) <==> a.Ok?)
      && (ClearSession in events <==> a.HttpError? && a.status == 401)
  {
  }

  /** With auto-retry on, a save sends at most four requests, one more than
      the retries left; with it off, or the retries used up, exactly one. */
  lemma {:induction false} PerformRequests(outcome: nat -> Attempt, autoRetry: bool, retryCount: nat)
    ensures var n := Requests(Perform(outcome, autoRetry, retryCount));
      (retryCount <= MaxRetries(autoRetry) ==> n <= MaxRetries(autoRetry) - retryCount + 1)
      && (retryCount >= MaxRetries(autoRetry) ==> n == 1)
    decreases if retryCount <= 3 then 3 - retryCount else 0
  {
    var a := outcome(retryCount);
    if !a.Ok? && WillRetry(FailureStatus(a), retryCount, autoRetry) {
      RetryShape(outcome, autoRetry, retryCount);
      PerformRequests(outcome, autoRetry, retryCount + 1);
    } else {
      FinalShape(outcome, autoRetry, retryCount);
    }
  }

  /** A refused password or a rate limit is never retried: the run reports
      the failure after that one request, whatever retries are left. */
  lemma RefusalNotRetried(outcome: nat -> Attempt, autoRetry: bool, retryCount: nat)
    requires outcome(retryCount).HttpError?
    requires outcome(retryCount).status == 401 || outcome(retryCount).status == 429
    ensures var events := Perform(outcome, autoRetry, retryCount);
      Requests(events) == 1 && events[|events| - 1].Callback? && events[|events| - 1].error.Some?
  {
    FinalShape(outcome, autoRetry, retryCount);
  }

  /** The index of the attempt a run from `retryCount` ends with. */
  function LastAttempt(outcome: nat -> Attempt, autoRetry: bool, retryCount: nat): nat {
    retryCount + Requests(Perform(outcome, autoRetry, retryCount)) - 1
  }

  lemma LastAttemptOfRetry(outcome: nat -> Attempt, autoRetry: bool, retryCount: nat)
    requires !outcome(retryCount).Ok?
    requires WillRetry(FailureStatus(outcome(retryCount)), retryCount, autoRetry)
    ensures LastAttempt(outcome, autoRetry, retryCount) == LastAttempt(outcome, autoRetry, retryCount + 1)
  {
    RetryShape(outcome, autoRetry, retryCount);
  }

  /** The callback gets null exactly when the last attempt succeeded. */
  lemma {:induction false} PerformSucceeds(outcome: nat -> Attempt, autoRetry: bool, retryCount: nat)
    ensures var events := Perform(outcome, autoRetry, retryCount);
      events[|events| - 1] == Callback(None) <==> outcome(LastAttempt(outcome, autoRetry, retryCount)).Ok?
    decreases if retryCount <= 3 then 3 - retryCount else 0
  {
    var a := outcome(retryCount);
    if !a.Ok? && WillRetry(FailureStatus(a), retryCount, autoRetry) {
      RetryShape(outcome, autoRetry, retryCount);
      LastAttemptOfRetry(outcome, autoRetry, retryCount);
      PerformSucceeds(outcome, autoRetry, retryCount + 1);
    } else {
      FinalShape(outcome, autoRetry, retryCount);
    }
  }

  /** The run forgets the password exactly when its last attempt was refused
      with 401: that status is never retried. */
  lemma {:induction false} UnauthorizedClearsSession(outcome: nat -> Attempt, autoRetry: bool, retryCount: nat)
    ensures var last := outcome(LastAttempt(outcome, autoRetry, retryCount));
      ClearSession in Perform(outcome, autoRetry, retryCount) <==> last.HttpError? && last.status == 401
    decreases if retryCount <= 3 then 3 - retryCount else 0
  {
    var a := outcome(retryCount);
    if !a.Ok? && WillRetry(FailureStatus(a), retryCount, autoRetry) {
      RetryShape(outcome, autoRetry, retryCount);
      LastAttemptOfRetry(outcome, autoRetry, retryCount);
      UnauthorizedClearsSession(outcome, autoRetry, retryCount + 1);
    } else {
      FinalShape(outcome, autoRetry, retryCount);
    }
  }

  /** The callback of a run names the last attempt's failure, in the text
      `_handleSaveError` builds for it, or gets null when it succeeded. */
  lemma {:induction false} PerformCallback(outcome: nat -> Attempt, autoRetry: bool, retryCount: nat)
    ensures var events := Perform(outcome, autoRetry, retryCount);
      var last := outcome(LastAttempt(outcome, autoRetry, retryCount));
      events[|events| - 1] == if last.Ok? then Callback(None) else Callback(Some(FailureText(last)))
    decreases if retryCount <= 3 then 3 - retryCount else 0
  {
    var a := outcome(retryCount);
    if !a.Ok? && WillRetry(FailureStatus(a), retryCount, autoRetry) {
      RetryShape(outcome, autoRetry, retryCount);
      LastAttemptOfRetry(outcome, autoRetry, retryCount);
      PerformCallback(outcome, autoRetry, retryCount + 1);
    } else {
      FinalShape(outcome, autoRetry, retryCount);
    }
  }

  /** The delays a run waits, in order. */
  function Waits(events: seq<Event>): seq<nat> {
    if |events| == 0 then [] else (if events[0].Wait? then [events[0].ms] else []) + Waits(events[1..])
  }

  lemma {:induction false} WaitsConcat(a: seq<Event>, b: seq<Event>)
    ensures Waits(a + b) == Waits(a) + Waits(b)
    decreases |a|
  {
    if |a| == 0 {
      assert a + b == b;
    } else {
      var h := if a[0].Wait? then [a[0].ms] else [];
      assert (a + b)[0] == a[0];
      assert (a + b)[1..] == a[1..] + b;
      assert Waits(a + b) == h + Waits(a[1..] + b);
      WaitsConcat(a[1..], b);
      AppendAssoc(h, Waits(a[1..]), Waits(b));
    }
  }

  lemma {:induction false} NoWaits(events: seq<Event>)
    requires forall i :: 0 <= i < |events| ==> !events[i].Wait?
    ensures Waits(events) == []
    decreases |events|
  {
    if |events| > 0 {
      NoWaits(events[1..]);
    }
  }

  /** The backoff delays of `count` retries from attempt `from` on. */
  function Delays(from: nat, count: nat): (ds: seq<nat>)
    ensures |ds| == count
    ensures forall i :: 0 <= i < count ==> ds[i] == RetryDelay(from + i)
    decreases count
  {
    if count == 0 then [] else [RetryDelay(from)] + Delays(from + 1, count - 1)
  }

  /** A retried attempt waits its backoff delay before the next one. */
  lemma RetryWaits(outcome: nat -> Attempt, autoRetry: bool, retryCount: nat)
    requires !outcome(retryCount).Ok?
    requires WillRetry(FailureStatus(outcome(retryCount)), retryCount, autoRetry)
    ensures Waits(Perform(outcome, autoRetry, retryCount))
      == [RetryDelay(retryCount)] + Waits(Perform(outcome, autoRetry, retryCount + 1))
  {
    var head := Failed(retryCount, FailureStatus(outcome(retryCount)));
    var d := RetryDelay(retryCount);
    var rest := Perform(outcome, autoRetry, retryCount + 1);
    assert Perform(outcome, autoRetry, retryCount) == (head + [Wait(d)]) + rest;
    WaitsConcat(head + [Wait(d)], rest);
    WaitsConcat(head, [Wait(d)]);
    NoWaits(head);
    assert Waits([Wait(d)]) == [d];
  }

  /** The last attempt is followed by no wait. */
  lemma FinalWaits(outcome: nat -> Attempt, autoRetry: bool, retryCount: nat)
    requires outcome(retryCount).Ok? || !WillRetry(FailureStatus(outcome(retryCount)), retryCount, autoRetry)
    ensures Waits(Perform(outcome, autoRetry, retryCount)) == []
  {
    var a := outcome(retryCount);
    var events := Perform(outcome, autoRetry, retryCount);
    if a.Ok? {
      NoWaits(events);
    } else {
      var head := Failed(retryCount, FailureStatus(a));
      var tail := GiveUp(FailureText(a));
      assert events == head + tail;
      WaitsConcat(head, tail);
      NoWaits(head);
      NoWaits(tail);
    }
  }

  /** Between two attempts the run waits exactly once, and before attempt
      n + 1 it waits `RetryDelay(n)`. */
  lemma {:induction false} PerformWaits(outcome: nat -> Attempt, autoRetry: bool, retryCount: nat)
    ensures LastAttempt(outcome, autoRetry, retryCount) >= retryCount
    ensures Waits(Perform(outcome, autoRetry, retryCount))
      == Delays(retryCount, LastAttempt(outcome, autoRetry, retryCount) - retryCount)
    decreases if retryCount <= 3 then 3 - retryCount else 0
  {
    var a := outcome(retryCount);
    if !a.Ok? && WillRetry(FailureStatus(a), retryCount, autoRetry) {
      PerformWaits(outcome, autoRetry, retryCount + 1);
      RetryWaitsDelays(outcome, autoRetry, retryCount);
    } else {
      FinalShape(outcome, autoRetry, retryCount);
      FinalWaits(outcome, autoRetry, retryCount);
    }
  }

  /** One retry step of PerformWaits: the wait before attempt n + 1 joins the
      delays that follow it. */
  lemma RetryWaitsDelays(outcome: nat -> Attempt, autoRetry: bool, retryCount: nat)
    requires !outcome(retryCount).Ok?
    requires WillRetry(FailureStatus(outcome(retryCount)), retryCount, autoRetry)
    requires LastAttempt(outcome, autoRetry, retryCount + 1) >= retryCount + 1
    requires Waits(Perform(outcome, autoRetry, retryCount + 1))
      == Delays(retryCount + 1, LastAttempt(outcome, autoRetry, retryCount + 1) - (retryCount + 1))
    ensures Waits(Perform(outcome, autoRetry, retryCount))
      == Delays(retryCount, LastAttempt(outcome, autoRetry, retryCount) - retryCount)
  {
    var last := LastAttempt(outcome, autoRetry, retryCount + 1);
    RetryWaits(outcome, autoRetry, retryCount);
    LastAttemptOfRetry(outcome, autoRetry, retryCount);
    DelaysCons(retryCount, last - retryCount);
  }

  lemma DelaysCons(from: nat, count: nat)
    requires count > 0
    ensures Delays(from, count) == [RetryDelay(from)] + Delays(from + 1, count - 1)
  {
  }

  /** `_incrementStat`: the text stored is `String((parseInt(old) || 0) + 1)`. */
  function IncrementStat(stored: Option<int>): (text: string)
    ensures ReadInt(text) == Some(stored.GetOr(0) + 1)
  {
    var current := if stored.None? || stored.value == 0 then 0 else stored.value;
    IntToStringRoundTrip(current + 1);
    IntToString(current + 1)
  }
}

=== FILE: js_format.dfy ===
/** Dialect B, the `.js` module: metadata lines between the marker lines
    `/*\` and `\*/`, everything else is the body. Both build scripts parse
    it the same way. */
module JsFormat {
  import opened Wrappers
  import opened Strings
  import opened Assoc
  import opened Records
  import opened TidFormat

  const OpenMarker: string := "/*\\"
  const CloseMarker: string := "\\*/"

  predicate IsOpen(line: string) {
    Strip(line) == OpenMarker
  }

  predicate IsClose(line: string) {
    Strip(line) == CloseMarker
  }

  predicate IsMarker(line: string) {
    IsOpen(line) || IsClose(line)
  }

  predicate NoMarkers(lines: seq<string>) {
    forall i :: 0 <= i < |lines| ==> !IsMarker(lines[i])
  }

  /** The scanner between two lines: whether it is inside the metadata
      block, the fields so far and the body lines so far. */
  datatype ScanState = ScanState(inside: bool, fields: Record, body: seq<string>)

  const Start := ScanState(false, [], [])

  /** The field a metadata line defines: cut at the first ": ", key and
      value stripped; lines without ": " define none. */
  function MetaField(line: string): Option<(string, string)>
  {
    match Cut(line, FieldSeparator)
    case Some(kv) => Some((Strip(kv.0), Strip(kv.1)))
    case None => None
  }

  /** One iteration of the loop in `parse_js_file`: a marker line sets the
      state whatever it was and is dropped; inside the block a line may
      define a field; outside it the line joins the body. */
  function Step(st: ScanState, line: string): ScanState
  {
    if IsOpen(line) then st.(inside := true)
    else if IsClose(line) then st.(inside := false)
    else if st.inside then
      match MetaField(line)
      case Some(kv) => st.(fields := Put(st.fields, kv.0, kv.1))
      case None => st
    else st.(body := st.body + [line])
  }

  predicate StrippedFields(fields: Record) {
    forall i :: 0 <= i < |fields| ==> IsStripped(fields[i].0) && IsStripped(fields[i].1)
  }

  /** The loop over all lines. */
  function Scan(st: ScanState, lines: seq<string>): ScanState
  {
    if |lines| == 0 then st
    else Step(Scan(st, lines[..|lines| - 1]), lines[|lines| - 1])
  }

  /** One line keeps the fields unique and stripped. */
  lemma StepFields(st: ScanState, line: string)
    ensures UniqueKeys(st.fields) ==> UniqueKeys(Step(st, line).fields)
    ensures StrippedFields(st.fields) ==> StrippedFields(Step(st, line).fields)
  {
    if !IsMarker(line) && st.inside && MetaField(line).Some? {
      var kv := MetaField(line).value;
      assert Step(st, line).fields == Put(st.fields, kv.0, kv.1);
      if StrippedFields(st.fields) {
        PutStripped(st.fields, kv.0, kv.1);
      }
    }
  }

  lemma PutStripped(fields: Record, k: string, v: string)
    requires StrippedFields(fields) && IsStripped(k) && IsStripped(v)
    ensures StrippedFields(Put(fields, k, v))
  {
    var r := Put(fields, k, v);
    PutInPlace(fields, k, v);
    forall i | 0 <= i < |r|
      ensures IsStripped(r[i].0) && IsStripped(r[i].1)
    {
      if r[i] != (k, v) {
        assert r[i] == fields[i];
      }
    }
  }

  /** The loop keeps the fields unique and stripped. */
  lemma {:induction false} ScanFields(st: ScanState, lines: seq<string>)
    ensures UniqueKeys(st.fields) ==> UniqueKeys(Scan(st, lines).fields)
    ensures StrippedFields(st.fields) ==> StrippedFields(Scan(st, lines).fields)
  {
    if |lines| > 0 {
      ScanFields(st, lines[..|lines| - 1]);
      StepFields(Scan(st, lines[..|lines| - 1]), lines[|lines| - 1]);
    }
  }

  /** The body only grows, and only by lines of the input that are not
      markers. */
  lemma {:induction false} ScanBody(st: ScanState, lines: seq<string>)
    ensures st.body <= Scan(st, lines).body
    ensures var r := Scan(st, lines);
      forall i :: |st.body| <= i < |r.body| ==> r.body[i] in lines && !IsMarker(r.body[i])
  {
    if |lines| > 0 {
      var init := lines[..|lines| - 1];
      var line := lines[|lines| - 1];
      var prev := Scan(st, init);
      ScanBody(st, init);
      forall i | |st.body| <= i < |prev.body|
        ensures prev.body[i] in lines
      {
        assert prev.body[i] in init;
      }
    }
  }

  /** The scan of all lines of the content. */
  function ScanContent(content: string): ScanState {
    Scan(Start, Split(content, '\n'))
  }

  /** `parse_js_file` once the file is read: the metadata fields, then the
      body lines joined by newlines as "text". */
  function ParseJs(content: string): (r: Record)
    ensures UniqueKeys(r)
    ensures TextField in Keys(r)
    ensures forall i :: 0 <= i < |r| ==> IsStripped(r[i].0)
    ensures forall i :: 0 <= i < |r| && r[i].0 != TextField ==> IsStripped(r[i].1)
  {
    var st := Scan(Start, Split(content, '\n'));
    var body := Join(st.body, "\n");
    ScanFields(Start, Split(content, '\n'));
    var r := Put(st.fields, TextField, body);
    PutTextStripped(st.fields, body, r);
    r
  }

  /** Adding "text" to stripped fields leaves every key and every other
      value stripped. */
  lemma PutTextStripped(fields: Record, body: string, r: Record)
    requires StrippedFields(fields) && r == Put(fields, TextField, body)
    ensures forall i :: 0 <= i < |r| ==> IsStripped(r[i].0)
    ensures forall i :: 0 <= i < |r| && r[i].0 != TextField ==> IsStripped(r[i].1)
  {
    PutInPlace(fields, TextField, body);
    assert IsStripped(TextField) by {
      assert TextField[0] == 't' && TextField[|TextField| - 1] == 't';
    }
    forall i | 0 <= i < |r|
      ensures IsStripped(r[i].0) && (r[i].0 != TextField ==> IsStripped(r[i].1))
    {
      if r[i] != (TextField, body) {
        assert r[i] == fields[i];
      }
    }
  }

  /** The body never holds a marker line, and every body line is a line of
      the content. */
  lemma JsBodyLines(content: string)
    ensures Get(ParseJs(content), TextField) == Some(Join(ScanContent(content).body, "\n"))
    ensures forall i :: 0 <= i < |ScanContent(content).body| ==>
      ScanContent(content).body[i] in Split(content, '\n') && !IsMarker(ScanContent(content).body[i])
  {
    ScanBody(Start, Split(content, '\n'));
  }

  /** Splitting the lines scanned in two scans the halves in turn. */
  lemma {:induction false} ScanConcat(st: ScanState, a: seq<string>, b: seq<string>)
    ensures Scan(st, a + b) == Scan(Scan(st, a), b)
    decreases |b|
  {
    if |b| == 0 {
      assert a + b == a;
    } else {
      assert (a + b)[..|a + b| - 1] == a + b[..|b| - 1];
      assert (a + b)[|a + b| - 1] == b[|b| - 1];
      ScanConcat(st, a, b[..|b| - 1]);
    }
  }

  /** The loop's last iteration. */
  lemma ScanLast(st: ScanState, lines: seq<string>)
    requires |lines| > 0
    ensures Scan(st, lines) == Step(Scan(st, lines[..|lines| - 1]), lines[|lines| - 1])
  {
  }

  lemma LastSplit<T>(s: seq<T>)
    requires |s| > 0
    ensures s == s[..|s| - 1] + [s[|s| - 1]]
  {
  }

  lemma AppendLast<T>(a: seq<T>, b: seq<T>)
    requires |b| > 0
    ensures a + b == (a + b[..|b| - 1]) + [b[|b| - 1]]
  {
    assert b == b[..|b| - 1] + [b[|b| - 1]];
  }

  lemma NoMarkersInit(lines: seq<string>)
    requires |lines| > 0 && NoMarkers(lines)
    ensures NoMarkers(lines[..|lines| - 1]) && !IsMarker(lines[|lines| - 1])
  {
    assert forall i :: 0 <= i < |lines| - 1 ==> lines[..|lines| - 1][i] == lines[i];
  }

  /** Outside the block a line that is not a marker joins the body. */
  lemma StepOutside(st: ScanState, line: string)
    requires !st.inside && !IsMarker(line)
    ensures Step(st, line) == st.(body := st.body + [line])
  {
  }

  /** Outside the block, lines that are not markers are appended to the
      body in order and nothing else changes. */
  lemma {:induction false} ScanOutside(st: ScanState, lines: seq<string>)
    requires !st.inside && NoMarkers(lines)
    ensures Scan(st, lines) == st.(body := st.body + lines)
  {
    if |lines| > 0 {
      var init := lines[..|lines| - 1];
      var line := lines[|lines| - 1];
      var mid := st.(body := st.body + init);
      assert Scan(st, init) == mid by {
        NoMarkersInit(lines);
        ScanOutside(st, init);
      }
      assert Step(mid, line) == mid.(body := mid.body + [line]) by {
        NoMarkersInit(lines);
        StepOutside(mid, line);
      }
      ScanLast(st, lines);
      AppendLast(st.body, lines);
    }
  }

  /** The fields the lines of a metadata block define, in order. */
  function MetaPairs(lines: seq<string>): seq<(string, string)>
  {
    if |lines| == 0 then []
    else
      var init := MetaPairs(lines[..|lines| - 1]);
      match MetaField(lines[|lines| - 1])
      case Some(kv) => init + [kv]
      case None => init
  }

  /** Inside the block, lines that are not markers only assign their fields
      (lines without ": " are dropped) and the body does not change. */
  lemma {:induction false} ScanInside(st: ScanState, lines: seq<string>)
    requires st.inside && NoMarkers(lines)
    ensures Scan(st, lines) == st.(fields := PutAll(st.fields, MetaPairs(lines)))
  {
    if |lines| > 0 {
      NoMarkersInit(lines);
      ScanInside(st, lines[..|lines| - 1]);
      ScanLast(st, lines);
    }
  }

  /** A marker-delimited block is read as metadata whatever state the
      scanner is in when it starts: an open marker always enters the block
      and a close marker always leaves it. */
  lemma ScanBlock(st: ScanState, open: string, lines: seq<string>, close: string)
    requires IsOpen(open) && IsClose(close) && NoMarkers(lines)
    ensures Scan(st, [open] + lines + [close]) == ScanState(false, PutAll(st.fields, MetaPairs(lines)), st.body)
  {
    ScanConcat(st, [open], lines);
    ScanConcat(st, [open] + lines, [close]);
    assert Scan(st, [open]) == st.(inside := true) by {
      assert [open][..0] == [];
    }
    ScanInside(st.(inside := true), lines);
    assert [close][..0] == [];
  }

  /** With no marker line the content has no fields and is the body,
      byte for byte. */
  lemma JsWithoutMarkers(content: string)
    requires NoMarkers(Split(content, '\n'))
    ensures ParseJs(content) == [(TextField, content)]
  {
    var lines := Split(content, '\n');
    assert Scan(Start, lines) == ScanState(false, [], lines) by {
      ScanOutside(Start, lines);
      assert [] + lines == lines;
    }
    assert Join(lines, "\n") == content by {
      JoinSplit(content, '\n');
    }
  }

  /** The lines of a module with one metadata block. */
  function BlockLines(fields: seq<(string, string)>): seq<string> {
    [OpenMarker] + HeaderLines(fields) + [CloseMarker]
  }

  /** Fields that can be written in a metadata block and read back
      unchanged. */
  predicate WritableMeta(fields: seq<(string, string)>) {
    WritableHeaders(fields) && StrippedFields(fields)
  }

  predicate NoNewlines(lines: seq<string>) {
    forall i :: 0 <= i < |lines| ==> '\n' !in lines[i]
  }

  /** Lines that pass through as body. */
  predicate PlainLines(lines: seq<string>) {
    NoMarkers(lines) && NoNewlines(lines)
  }

  lemma NoNewlinesConcat(a: seq<string>, b: seq<string>)
    requires NoNewlines(a) && NoNewlines(b)
    ensures NoNewlines(a + b)
  {
    forall i | 0 <= i < |a + b|
      ensures '\n' !in (a + b)[i]
    {
      if i < |a| {
        assert (a + b)[i] == a[i];
      } else {
        assert (a + b)[i] == b[i - |a|];
      }
    }
  }

  /** Parsing lines joined by newlines is scanning those lines. */
  lemma ParseJsOfLines(lines: seq<string>)
    requires |lines| >= 1 && NoNewlines(lines)
    ensures ParseJs(Join(lines, "\n")) == Put(Scan(Start, lines).fields, TextField, Join(Scan(Start, lines).body, "\n"))
  {
    SplitJoin(lines, '\n');
  }

  lemma MetaLinesAreNotMarkers(fields: seq<(string, string)>)
    ensures NoMarkers(HeaderLines(fields))
  {
    forall i | 0 <= i < |fields|
      ensures !IsMarker(HeaderLines(fields)[i])
    {
      var line := HeaderLines(fields)[i];
      assert line[|fields[i].0|] == ':';
      assert ':' in Strip(line);
      assert ':' !in OpenMarker && ':' !in CloseMarker;
    }
  }

  /** The metadata lines of stripped fields whose keys hold no ": " define
      exactly those fields. */
  lemma {:induction false} MetaPairsOfLines(fields: seq<(string, string)>)
    requires StrippedFields(fields)
    requires forall i :: 0 <= i < |fields| ==> !Contains(fields[i].0, FieldSeparator)
    ensures MetaPairs(HeaderLines(fields)) == fields
  {
    if |fields| > 0 {
      var init := fields[..|fields| - 1];
      var last := fields[|fields| - 1];
      assert HeaderLines(fields) == HeaderLines(init) + [HeaderLine(last)];
      assert MetaPairs(HeaderLines(init)) == init by {
        assert forall i :: 0 <= i < |init| ==> init[i] == fields[i];
        MetaPairsOfLines(init);
      }
      MetaFieldOfLine(last);
      MetaPairsSnoc(HeaderLines(init), HeaderLine(last));
      LastSplit(fields);
    }
  }

  lemma MetaPairsSnoc(lines: seq<string>, line: string)
    requires MetaField(line).Some?
    ensures MetaPairs(lines + [line]) == MetaPairs(lines) + [MetaField(line).value]
  {
    assert (lines + [line])[..|lines|] == lines;
  }

  /** The header line of a stripped field whose key holds no ": " defines
      that field. */
  lemma MetaFieldOfLine(kv: (string, string))
    requires IsStripped(kv.0) && IsStripped(kv.1) && !Contains(kv.0, FieldSeparator)
    ensures MetaField(HeaderLine(kv)) == Some(kv)
  {
    CutColonSpace(kv.0, kv.1);
  }

  lemma BlockLinesArePlain(fields: seq<(string, string)>)
    requires WritableMeta(fields)
    ensures NoNewlines(BlockLines(fields))
  {
    var lines := BlockLines(fields);
    forall i | 0 <= i < |lines|
      ensures '\n' !in lines[i]
    {
      if 0 < i < |lines| - 1 {
        var kv := fields[i - 1];
        assert lines[i] == kv.0 + ": " + kv.1;
      }
    }
  }

  lemma MarkersAreMarkers()
    ensures IsOpen(OpenMarker) && IsClose(CloseMarker)
  {
    assert IsStripped(OpenMarker) by {
      assert OpenMarker[0] == '/' && OpenMarker[|OpenMarker| - 1] == '\\';
    }
    assert IsStripped(CloseMarker) by {
      assert CloseMarker[0] == '\\' && CloseMarker[|CloseMarker| - 1] == '/';
    }
  }

  lemma ScanWrittenBlock(st: ScanState, fields: seq<(string, string)>)
    requires WritableMeta(fields)
    ensures Scan(st, BlockLines(fields)) == ScanState(false, PutAll(st.fields, fields), st.body)
  {
    MarkersAreMarkers();
    MetaLinesAreNotMarkers(fields);
    MetaPairsOfLines(fields);
    ScanBlock(st, OpenMarker, HeaderLines(fields), CloseMarker);
  }

  /** Writing a module as body lines, one metadata block and more body
      lines, then parsing it, gives back the fields in order followed by the
      body lines joined as "text". */
  lemma JsRoundTrip(pre: seq<string>, fields: seq<(string, string)>, post: seq<string>)
    requires PlainLines(pre) && PlainLines(post) && WritableMeta(fields)
    ensures ParseJs(Join(pre + BlockLines(fields) + post, "\n"))
         == fields + [(TextField, Join(pre + post, "\n"))]
  {
    var block := BlockLines(fields);
    var all := pre + block + post;
    BlockLinesArePlain(fields);
    NoNewlinesConcat(pre, block);
    NoNewlinesConcat(pre + block, post);
    ParseJsOfLines(all);
    ScanOneBlock(pre, fields, post);
    assert TextField !in Keys(fields);
  }

  /** Body lines followed by one block, from the start. */
  lemma ScanFirstBlock(pre: seq<string>, fields: seq<(string, string)>)
    requires NoMarkers(pre) && WritableMeta(fields)
    ensures Scan(Start, pre + BlockLines(fields)) == ScanState(false, fields, pre)
  {
    var block := BlockLines(fields);
    assert Scan(Start, pre) == ScanState(false, [], pre) by {
      ScanOutside(Start, pre);
      assert [] + pre == pre;
    }
    assert Scan(ScanState(false, [], pre), block) == ScanState(false, fields, pre) by {
      ScanWrittenBlock(ScanState(false, [], pre), fields);
      assert [] + fields == fields;
      PutAllFresh([], fields);
    }
    ScanConcat(Start, pre, block);
  }

  lemma ScanOneBlock(pre: seq<string>, fields: seq<(string, string)>, post: seq<string>)
    requires NoMarkers(pre) && NoMarkers(post) && WritableMeta(fields)
    ensures Scan(Start, pre + BlockLines(fields) + post) == ScanState(false, fields, pre + post)
  {
    ScanFirstBlock(pre, fields);
    ScanConcat(Start, pre + BlockLines(fields), post);
    ScanOutside(ScanState(false, fields, pre), post);
  }

  /** Two blocks with body lines around them: the second block's fields are
      assigned over the first's and the body is the lines outside both. */
  lemma ScanTwoBlocks(pre: seq<string>, first: seq<(string, string)>, mid: seq<string>,
                      second: seq<(string, string)>, post: seq<string>)
    requires NoMarkers(pre) && NoMarkers(mid) && NoMarkers(post)
    requires WritableMeta(first) && WritableMeta(second)
    ensures Scan(Start, pre + BlockLines(first) + mid + BlockLines(second) + post)
         == ScanState(false, PutAll(first, second), pre + mid + post)
  {
    var p1 := pre + BlockLines(first);
    var p2 := p1 + mid;
    var p3 := p2 + BlockLines(second);
    ScanFirstBlock(pre, first);
    assert Scan(Start, p3) == ScanState(false, PutAll(first, second), pre + mid) by {
      ScanConcat(Start, p2, BlockLines(second));
      ScanConcat(Start, p1, mid);
      ScanOutside(ScanState(false, first, pre), mid);
      ScanWrittenBlock(ScanState(false, first, pre + mid), second);
    }
    ScanConcat(Start, p3, post);
    ScanOutside(ScanState(false, PutAll(first, second), pre + mid), post);
  }

  /** A second marker pair is metadata again, not body: its fields are
      assigned over the first block's and its lines never reach the body. */
  lemma JsSecondBlockIsMetadata(pre: seq<string>, first: seq<(string, string)>, mid: seq<string>,
                                second: seq<(string, string)>, post: seq<string>)
    requires PlainLines(pre) && PlainLines(mid) && PlainLines(post)
    requires WritableMeta(first) && WritableMeta(second)
    ensures ParseJs(Join(pre + BlockLines(first) + mid + BlockLines(second) + post, "\n"))
         == Put(PutAll(first, second), TextField, Join(pre + mid + post, "\n"))
  {
    var b1, b2 := BlockLines(first), BlockLines(second);
    var p1 := pre + b1;
    var p2 := p1 + mid;
    var p3 := p2 + b2;
    var all := p3 + post;
    BlockLinesArePlain(first);
    BlockLinesArePlain(second);
    NoNewlinesConcat(pre, b1);
    NoNewlinesConcat(p1, mid);
    NoNewlinesConcat(p2, b2);
    NoNewlinesConcat(p3, post);
    ParseJsOfLines(all);
    ScanTwoBlocks(pre, first, mid, second, post);
  }
}

=== FILE: paths.dfy ===
/** The two pieces of pathlib the scripts use on the relative paths that
    glob returns: the final component and its stem. */
module Paths {
  import opened Wrappers

  predicate NoSlash(s: string) {
    forall k :: 0 <= k < |s| ==> s[k] != '/'
  }

  /** Index just past the last '/' of p, 0 when there is none. */
  function NameStart(p: string): (i: nat)
    ensures i <= |p|
    ensures i > 0 ==> p[i - 1] == '/'
    ensures forall k :: i <= k < |p| ==> p[k] != '/'
  {
    if |p| == 0 then 0
    else if p[|p| - 1] == '/' then |p|
    else NameStart(p[..|p| - 1])
  }

  /** `Path(p).name`: the longest suffix of p without a '/'. */
  function Name(p: string): (r: string)
    ensures |r| <= |p| && p[|p| - |r|..] == r
    ensures NoSlash(r)
    ensures |r| < |p| ==> p[|p| - |r| - 1] == '/'
  {
    var i := NameStart(p);
    assert forall k :: 0 <= k < |p| - i ==> p[i..][k] == p[i + k];
    p[i..]
  }

  /** `str.rfind('.')`: the index of the last '.', if any. */
  function LastDot(s: string): (r: Option<nat>)
    ensures r.Some? ==> r.value < |s| && s[r.value] == '.'
    ensures r.Some? ==> forall k :: r.value < k < |s| ==> s[k] != '.'
    ensures r.None? ==> forall k :: 0 <= k < |s| ==> s[k] != '.'
  {
    if |s| == 0 then None
    else if s[|s| - 1] == '.' then Some(|s| - 1)
    else LastDot(s[..|s| - 1])
  }

  /** `Path(p).stem`: the name without its last suffix. A name whose last dot
      is its first character (".tid") or its last ("a.") has no suffix and is
      its own stem. */
  function Stem(p: string): (r: string)
    ensures |r| <= |Name(p)| && r == Name(p)[..|r|]
    ensures |Name(p)| > 0 ==> |r| > 0
  {
    var n := Name(p);
    var dot := LastDot(n);
    if dot.Some? && 0 < dot.value < |n| - 1 then
      n[..dot.value]
    else n
  }

  /** The final component of "dir/n" is n when n has no '/'. */
  lemma {:induction false} NameAfterSlash(dir: string, n: string)
    requires dir == [] || dir[|dir| - 1] == '/'
    requires NoSlash(n)
    ensures NameStart(dir + n) == |dir|
    decreases |n|
  {
    if |n| == 0 {
      assert dir + n == dir;
    } else {
      var init := n[..|n| - 1];
      assert (dir + n)[..|dir + n| - 1] == dir + init;
      assert (dir + n)[|dir + n| - 1] == n[|n| - 1];
      NameAfterSlash(dir, init);
    }
  }

  lemma {:induction false} LastDotBeforeExtension(base: string, ext: string)
    requires forall k :: 0 <= k < |ext| ==> ext[k] != '.'
    ensures LastDot(base + "." + ext) == Some(|base|)
    decreases |ext|
  {
    var n := base + "." + ext;
    if |ext| == 0 {
      assert n[|n| - 1] == '.';
    } else {
      assert n[..|n| - 1] == base + "." + ext[..|ext| - 1];
      assert n[|n| - 1] == ext[|ext| - 1];
      LastDotBeforeExtension(base, ext[..|ext| - 1]);
    }
  }

  /** "base.ext" has no '/' when neither base nor ext has one. */
  lemma FileNameNoSlash(base: string, ext: string)
    requires NoSlash(base) && NoSlash(ext)
    ensures NoSlash(base + "." + ext)
  {
    var n := base + "." + ext;
    forall k | 0 <= k < |n|
      ensures n[k] != '/'
    {
      if k < |base| {
        assert n[k] == base[k];
      } else if k > |base| {
        assert n[k] == ext[k - |base| - 1];
      }
    }
  }

  lemma FileNamePrefix(base: string, ext: string)
    ensures (base + "." + ext)[..|base|] == base
  {
  }

  /** "dir/n" names n when n has no '/'. */
  lemma NameOfFileName(dir: string, n: string)
    requires dir == [] || dir[|dir| - 1] == '/'
    requires NoSlash(n)
    ensures Name(dir + n) == n
  {
    NameAfterSlash(dir, n);
    assert (dir + n)[|dir|..] == n;
  }

  /** The stem of "dir/base.ext" is base, dots inside base included, when
      the extension is a non-empty run without '.' or '/'. */
  lemma StemOfFileName(dir: string, base: string, ext: string)
    requires dir == [] || dir[|dir| - 1] == '/'
    requires |base| > 0 && NoSlash(base)
    requires |ext| > 0 && NoSlash(ext) && forall k :: 0 <= k < |ext| ==> ext[k] != '.'
    ensures Stem(dir + base + "." + ext) == base
  {
    var n := base + "." + ext;
    FileNameNoSlash(base, ext);
    FileNamePrefix(base, ext);
    LastDotBeforeExtension(base, ext);
    NameOfFileName(dir, n);
    FileNameJoin(dir, base, ext);
    StemBeforeDot(dir + base + "." + ext, |base|);
  }

  /** A name whose last dot is neither its first nor its last character
      loses the dot and what follows it. */
  lemma StemBeforeDot(p: string, i: nat)
    requires LastDot(Name(p)) == Some(i) && 0 < i < |Name(p)| - 1
    ensures Stem(p) == Name(p)[..i]
  {
  }

  lemma FileNameJoin(dir: string, base: string, ext: string)
    ensures dir + base + "." + ext == dir + (base + "." + ext)
  {
  }
}

=== FILE: plugin_json.dfy ===
/** convert-to-json.py: parses every .tid and .js file of the tiddler
    directory, keys the records by title, falling back to the file stem, and
    writes `{"tiddlers": ...}`. A file that cannot be read is reported and
    skipped; the run fails only when no record at all was collected. */
module PluginJson {
  import opened Wrappers
  import opened Strings
  import opened Assoc
  import opened Records
  import opened Sources
  import opened Paths
  import opened Sorting

  /** A file to process and the parser its glob pattern selected. */
  datatype Source = Source(path: string, dialect: Dialect)

  function Tag(paths: seq<string>, d: Dialect): (r: seq<Source>)
    ensures |r| == |paths|
    ensures forall i :: 0 <= i < |paths| ==> r[i] == Source(paths[i], d)
  {
    seq(|paths|, i requires 0 <= i < |paths| => Source(paths[i], d))
  }

  /** The paths of a list of sources, in order. */
  function PathsOf(sources: seq<Source>): (r: seq<string>)
    ensures |r| == |sources|
    ensures forall i :: 0 <= i < |sources| ==> r[i] == sources[i].path
  {
    seq(|sources|, i requires 0 <= i < |sources| => sources[i].path)
  }

  /** The .tid files in sorted order, then the .js files in sorted order:
      each half holds exactly the files its glob returned. */
  function ProcessingOrder(tidFiles: seq<string>, jsFiles: seq<string>): (r: seq<Source>)
    ensures |r| == |tidFiles| + |jsFiles|
    ensures forall i :: 0 <= i < |tidFiles| ==> r[i].dialect == Tid
    ensures forall i :: |tidFiles| <= i < |r| ==> r[i].dialect == Js
    ensures forall i, j :: 0 <= i < j < |tidFiles| ==> LexLe(r[i].path, r[j].path)
    ensures forall i, j :: |tidFiles| <= i < j < |r| ==> LexLe(r[i].path, r[j].path)
    ensures multiset(PathsOf(r[..|tidFiles|])) == multiset(tidFiles)
    ensures multiset(PathsOf(r[|tidFiles|..])) == multiset(jsFiles)
  {
    var t := Sort(tidFiles);
    var j := Sort(jsFiles);
    assert |t| == |tidFiles| && |j| == |jsFiles| by {
      assert |multiset(t)| == |multiset(tidFiles)|;
      assert |multiset(j)| == |multiset(jsFiles)|;
    }
    var r := Tag(t, Tid) + Tag(j, Js);
    assert PathsOf(r[..|t|]) == t;
    assert PathsOf(r[|t|..]) == j;
    r
  }

  lemma PathsOfConcat(a: seq<Source>, b: seq<Source>)
    ensures PathsOf(a + b) == PathsOf(a) + PathsOf(b)
  {
  }

  /** The processing order visits exactly the files the two globs returned. */
  lemma OrderCoversFiles(tidFiles: seq<string>, jsFiles: seq<string>)
    ensures forall p :: p in PathsOf(ProcessingOrder(tidFiles, jsFiles)) <==> p in tidFiles + jsFiles
  {
    var r := ProcessingOrder(tidFiles, jsFiles);
    var n := |tidFiles|;
    assert r == r[..n] + r[n..];
    PathsOfConcat(r[..n], r[n..]);
    var all := PathsOf(r);
    assert multiset(all) == multiset(tidFiles) + multiset(jsFiles);
    assert multiset(tidFiles + jsFiles) == multiset(tidFiles) + multiset(jsFiles);
    forall p
      ensures p in all <==> p in tidFiles + jsFiles
    {
      assert p in all <==> p in multiset(all);
      assert p in tidFiles + jsFiles <==> p in multiset(tidFiles + jsFiles);
    }
  }

  /** `tiddler.get('title', Path(path).stem)`: an empty title is kept. */
  function KeyOf(rec: Record, path: string): (k: string)
    ensures TitleField in Keys(rec) ==> Some(k) == Get(rec, TitleField)
    ensures TitleField !in Keys(rec) ==> k == Stem(path)
  {
    Get(rec, TitleField).GetOr(Stem(path))
  }

  function RecordOf(disk: Disk, s: Source): Record
    requires Readable(disk, s.path)
  {
    ReadSoft(disk, s.dialect, s.path).value
  }

  datatype Collected = Collected(tiddlers: Tiddlers, errors: seq<string>)

  /** The two loops of `main`: each readable file's record is stored under its
      key, a later one replacing an earlier one with the same key; each
      unreadable file is added to the errors. */
  function Collect(disk: Disk, sources: seq<Source>): (r: Collected)
    ensures UniqueKeys(r.tiddlers)
    ensures forall i :: 0 <= i < |sources| && !Readable(disk, sources[i].path) ==> sources[i].path in r.errors
    ensures forall p :: p in r.errors ==> !Readable(disk, p)
    ensures |r.errors| <= |sources|
  {
    if |sources| == 0 then Collected([], [])
    else
      var init := sources[..|sources| - 1];
      var s := sources[|sources| - 1];
      var c := Collect(disk, init);
      assert forall i :: 0 <= i < |init| ==> sources[i] == init[i];
      if Readable(disk, s.path) then
        var rec := RecordOf(disk, s);
        Collected(Put(c.tiddlers, KeyOf(rec, s.path), rec), c.errors)
      else Collected(c.tiddlers, c.errors + [s.path])
  }

  /** Every readable file's key is present in the result. */
  lemma {:induction false} CollectHasKey(disk: Disk, sources: seq<Source>, i: nat)
    requires i < |sources| && Readable(disk, sources[i].path)
    ensures KeyOf(RecordOf(disk, sources[i]), sources[i].path) in Keys(Collect(disk, sources).tiddlers)
  {
    var init := sources[..|sources| - 1];
    var c := Collect(disk, init);
    var last := sources[|sources| - 1];
    if i < |sources| - 1 {
      assert sources[i] == init[i];
      CollectHasKey(disk, init, i);
      if Readable(disk, last.path) {
        PutKeepsKeys(c.tiddlers, KeyOf(RecordOf(disk, last), last.path), RecordOf(disk, last),
          KeyOf(RecordOf(disk, sources[i]), sources[i].path));
      }
    }
  }

  /** Reference reading: the (key, record) pair of every readable file, in
      processing order. */
  function Entries(disk: Disk, sources: seq<Source>): (r: seq<(string, Record)>)
  {
    Flatten(s => Entry(disk, s), sources)
  }

  /** The pieces f gives for each element, concatenated in order. */
  function Flatten<T, U>(f: T -> seq<U>, xs: seq<T>): seq<U>
  {
    if |xs| == 0 then [] else Flatten(f, xs[..|xs| - 1]) + f(xs[|xs| - 1])
  }

  lemma {:induction false} FlattenConcat<T, U>(f: T -> seq<U>, a: seq<T>, b: seq<T>)
    ensures Flatten(f, a + b) == Flatten(f, a) + Flatten(f, b)
    decreases |b|
  {
    if |b| == 0 {
      assert a + b == a;
    } else {
      var ab := a + b;
      assert ab[..|ab| - 1] == a + b[..|b| - 1];
      assert ab[|ab| - 1] == b[|b| - 1];
      FlattenConcat(f, a, b[..|b| - 1]);
    }
  }

  /** The pair one file contributes: none when it cannot be read. */
  function Entry(disk: Disk, s: Source): (r: seq<(string, Record)>)
    ensures |r| <= 1
  {
    if Readable(disk, s.path) then [(KeyOf(RecordOf(disk, s), s.path), RecordOf(disk, s))] else []
  }

  lemma {:induction false} CollectIsPutAll(disk: Disk, sources: seq<Source>)
    ensures Collect(disk, sources).tiddlers == PutAll([], Entries(disk, sources))
  {
    if |sources| > 0 {
      var init := sources[..|sources| - 1];
      var e := Entry(disk, sources[|sources| - 1]);
      var x := Entries(disk, init);
      assert Entries(disk, sources) == x + e;
      assert Collect(disk, init).tiddlers == PutAll([], x) by {
        CollectIsPutAll(disk, init);
      }
      if |e| == 1 {
        assert x + e == x + [e[0]];
        PutAllSnoc([], x, e[0]);
      } else {
        assert x + e == x;
      }
    }
  }

  lemma EntriesConcat(disk: Disk, a: seq<Source>, b: seq<Source>)
    ensures Entries(disk, a + b) == Entries(disk, a) + Entries(disk, b)
  {
    FlattenConcat(s => Entry(disk, s), a, b);
  }

  /** No record is collected exactly when no file could be read. */
  lemma {:induction false} CollectEmpty(disk: Disk, sources: seq<Source>)
    ensures |Collect(disk, sources).tiddlers| == 0 <==> forall i :: 0 <= i < |sources| ==> !Readable(disk, sources[i].path)
  {
    if |sources| > 0 {
      var init := sources[..|sources| - 1];
      CollectEmpty(disk, init);
      assert forall i :: 0 <= i < |init| ==> sources[i] == init[i];
    }
  }

  /** A key maps to the record of the last readable file carrying it. */
  lemma CollectKeepsLast(disk: Disk, sources: seq<Source>, key: string)
    ensures Get(Collect(disk, sources).tiddlers, key) == LastValue(Entries(disk, sources), key)
  {
    CollectIsPutAll(disk, sources);
    PutAllGet([], Entries(disk, sources), key);
  }

  /** A .js file wins over any .tid file with the same key: the key holds the
      last .js record with it, and a .tid record only when no .js file has it. */
  lemma JsWinsOverTid(disk: Disk, tids: seq<string>, jss: seq<string>, key: string)
    ensures var r := Get(Collect(disk, Tag(tids, Tid) + Tag(jss, Js)).tiddlers, key);
      r == if LastValue(Entries(disk, Tag(jss, Js)), key).Some? then LastValue(Entries(disk, Tag(jss, Js)), key)
           else LastValue(Entries(disk, Tag(tids, Tid)), key)
  {
    CollectKeepsLast(disk, Tag(tids, Tid) + Tag(jss, Js), key);
    EntriesConcat(disk, Tag(tids, Tid), Tag(jss, Js));
    LastValueConcat(Entries(disk, Tag(tids, Tid)), Entries(disk, Tag(jss, Js)), key);
  }

  /** A file without a "title" field is keyed by its stem. */
  lemma UntitledKeyedByStem(rec: Record, dir: string, base: string, ext: string)
    requires TitleField !in Keys(rec)
    requires dir == [] || dir[|dir| - 1] == '/'
    requires |base| > 0 && NoSlash(base)
    requires |ext| > 0 && NoSlash(ext) && forall k :: 0 <= k < |ext| ==> ext[k] != '.'
    ensures KeyOf(rec, dir + base + "." + ext) == base
  {
    StemOfFileName(dir, base, ext);
  }

  /** The JSON file's content: an object whose only key is "tiddlers". */
  function Bundle(tiddlers: Tiddlers): (r: Assoc<Tiddlers>)
    ensures Keys(r) == ["tiddlers"]
    ensures Get(r, "tiddlers") == Some(tiddlers)
  {
    [("tiddlers", tiddlers)]
  }

  /** What a successful run writes, and the files it reported. */
  datatype Converted = Converted(bundle: Assoc<Tiddlers>, errors: seq<string>)

  /** No file in the processing order can be read exactly when none of the
      globbed files can. */
  lemma NothingReadable(disk: Disk, tidFiles: seq<string>, jsFiles: seq<string>)
    ensures var order := ProcessingOrder(tidFiles, jsFiles);
      (forall i :: 0 <= i < |order| ==> !Readable(disk, order[i].path))
      <==> (forall p :: p in tidFiles + jsFiles ==> !Readable(disk, p))
  {
    var order := ProcessingOrder(tidFiles, jsFiles);
    OrderCoversFiles(tidFiles, jsFiles);
    assert (forall i :: 0 <= i < |order| ==> !Readable(disk, order[i].path))
      <==> (forall p :: p in PathsOf(order) ==> !Readable(disk, p));
  }

  /** `main`, given what the two globs returned. On failure the run exits
      with status 1 after reporting the unreadable files. */
  function Convert(disk: Disk, tidFiles: seq<string>, jsFiles: seq<string>): (r: Result<Converted, seq<string>>)
    ensures r.Failure? <==> forall i :: 0 <= i < |tidFiles| + |jsFiles| ==>
      !Readable(disk, ProcessingOrder(tidFiles, jsFiles)[i].path)
    ensures r.Success? ==> Keys(r.value.bundle) == ["tiddlers"]
    ensures r.Success? ==> |Get(r.value.bundle, "tiddlers").value| > 0
    ensures r.Failure? <==> forall p :: p in tidFiles + jsFiles ==> !Readable(disk, p)
    ensures r.Success? ==>
      Get(r.value.bundle, "tiddlers") == Some(PutAll([], Entries(disk, ProcessingOrder(tidFiles, jsFiles))))
  {
    var order := ProcessingOrder(tidFiles, jsFiles);
    var c := Collect(disk, order);
    CollectEmpty(disk, order);
    CollectIsPutAll(disk, order);
    NothingReadable(disk, tidFiles, jsFiles);
    if |c.tiddlers| == 0 then Failure(c.errors)
    else Success(Converted(Bundle(c.tiddlers), c.errors))
  }

  /** The output does not depend on the order in which glob lists the files. */
  lemma ConvertIgnoresGlobOrder(disk: Disk, tids1: seq<string>, tids2: seq<string>, jss1: seq<string>, jss2: seq<string>)
    requires multiset(tids1) == multiset(tids2) && multiset(jss1) == multiset(jss2)
    ensures Convert(disk, tids1, jss1) == Convert(disk, tids2, jss2)
  {
    SortIgnoresOrder(tids1, tids2);
    SortIgnoresOrder(jss1, jss2);
  }
}

=== FILE: plugin_tid.dfy ===
/** create-plugin-tid.py: reads plugin.info and the fixed list of core
    tiddler files, keys the parsed records by title and writes the plugin as
    one dialect-A tiddler whose body is the serialised title map. */
module PluginTid {
  import opened Wrappers
  import opened Strings
  import opened Assoc
  import opened Records
  import opened TidFormat
  import opened Sources

  const TiddlerDir: string := "plugins/collaborative-blog/tiddlers/"

  /** The core tiddlers, in the order the script visits them. */
  const CoreTiddlers: seq<string> := [
    TiddlerDir + "styles.tid",
    TiddlerDir + "navigation.tid",
    TiddlerDir + "admin-panel.tid",
    TiddlerDir + "viewtemplate-systemtiddler.tid",
    TiddlerDir + "viewtemplate-post.tid",
    TiddlerDir + "viewtemplate-page.tid",
    TiddlerDir + "readme.tid",
    TiddlerDir + "viewtemplate-post-event.tid",
    TiddlerDir + "viewtemplate-post-gallery.tid",
    TiddlerDir + "viewtemplate-post-video.tid",
    TiddlerDir + "viewtemplate-post-quote.tid",
    TiddlerDir + "theme-controller.tid",
    TiddlerDir + "theme-switcher.tid",
    TiddlerDir + "search-panel.tid",
    TiddlerDir + "search-results.tid",
    TiddlerDir + "analytics-controller.tid",
    TiddlerDir + "analytics-settings.tid",
    TiddlerDir + "rss-feed.tid",
    TiddlerDir + "rss-config.tid",
    TiddlerDir + "sitemap.tid",
    TiddlerDir + "social-meta-tags.tid",
    TiddlerDir + "seo-config-og-image.tid",
    TiddlerDir + "seo-config-twitter.tid",
    TiddlerDir + "reading-time-macro.tid",
    TiddlerDir + "table-of-contents-macro.tid",
    TiddlerDir + "cloudflare-saver.js",
    TiddlerDir + "cloudflare-startup.js",
    TiddlerDir + "cloudflare-test-action.js",
    TiddlerDir + "cloudflare-clear-password-action.js",
    TiddlerDir + "cloudflare-settings.tid",
    TiddlerDir + "cloudflare-wizard.tid",
    TiddlerDir + "notification-saving.tid",
    TiddlerDir + "notification-success.tid",
    TiddlerDir + "notification-failure.tid"
  ]

  /** plugin.info after `json.load`: absent, not JSON, or an object whose
      values are given here already rendered as the f-string renders them. */
  datatype InfoFile = InfoMissing | InfoInvalid | InfoObject(values: map<string, string>)

  /** Why the script exits with status 1, in the order it checks. */
  datatype BuildError =
    | NoInfoFile
    | BadInfoJson
    | ReadFailed(path: string)
    | MissingFiles(paths: seq<string>)
    | MissingInfoKey(key: string)

  /** `tiddler.get('title')` is truthy: present and not empty. */
  predicate HasTitle(rec: Record) {
    Get(rec, TitleField).Some? && Get(rec, TitleField).value != ""
  }

  /** The record read from a path, parsed by its suffix. */
  function RecordAt(disk: Disk, path: string): Record
    requires Readable(disk, path)
  {
    Parse(DialectOf(path), disk[path].value)
  }

  /** Where the loop over the source list has got to. */
  datatype Gathered = Gathered(tiddlers: Tiddlers, missing: seq<string>, untitled: seq<string>)

  /** The loop over the source list: a path that does not exist is noted and
      skipped; the first path that exists but cannot be read ends the run; a
      record with a truthy title is stored under it, a later one with the
      same title replacing it; a record without one is skipped with a
      warning. */
  function Gather(disk: Disk, paths: seq<string>): (r: Result<Gathered, string>)
    ensures r.Success? <==> forall i :: 0 <= i < |paths| ==> !CannotRead(disk, paths[i])
    ensures r.Failure? ==> r.error in paths && CannotRead(disk, r.error)
    ensures r.Success? ==> UniqueKeys(r.value.tiddlers)
    ensures r.Success? ==> forall p :: p in r.value.missing <==> p in paths && !Exists(disk, p)
    ensures r.Success? ==> forall p :: p in r.value.untitled <==>
      p in paths && Readable(disk, p) && !HasTitle(RecordAt(disk, p))
  {
    if |paths| == 0 then Success(Gathered([], [], []))
    else
      var init := paths[..|paths| - 1];
      var p := paths[|paths| - 1];
      assert paths == init + [p];
      match Gather(disk, init)
      case Failure(e) => Failure(e)
      case Success(g) =>
        if p !in disk then Success(g.(missing := g.missing + [p]))
        else if disk[p].None? then Failure(p)
        else
          var rec := RecordAt(disk, p);
          if HasTitle(rec) then Success(g.(tiddlers := Put(g.tiddlers, Get(rec, TitleField).value, rec)))
          else Success(g.(untitled := g.untitled + [p]))
  }

  /** Reference reading of the title map: the (title, record) pairs of the
      readable titled sources, in list order. */
  function TitledEntries(disk: Disk, paths: seq<string>): seq<(string, Record)>
  {
    if |paths| == 0 then []
    else
      var init := TitledEntries(disk, paths[..|paths| - 1]);
      var p := paths[|paths| - 1];
      if Readable(disk, p) && HasTitle(RecordAt(disk, p)) then
        init + [(Get(RecordAt(disk, p), TitleField).value, RecordAt(disk, p))]
      else init
  }

  lemma {:induction false} GatherIsPutAll(disk: Disk, paths: seq<string>)
    requires Gather(disk, paths).Success?
    ensures Gather(disk, paths).value.tiddlers == PutAll([], TitledEntries(disk, paths))
  {
    if |paths| > 0 {
      var init := paths[..|paths| - 1];
      GatherIsPutAll(disk, init);
    }
  }

  /** A title maps to the record of the last source carrying that title. */
  lemma GatherKeepsLastTitled(disk: Disk, paths: seq<string>, title: string)
    requires Gather(disk, paths).Success?
    ensures Get(Gather(disk, paths).value.tiddlers, title) == LastValue(TitledEntries(disk, paths), title)
  {
    GatherIsPutAll(disk, paths);
    PutAllGet([], TitledEntries(disk, paths), title);
  }

  /** The run stops at the first unreadable path in list order, whatever
      follows it. */
  lemma {:induction false} GatherStopsAtFirstUnreadable(disk: Disk, paths: seq<string>, i: nat)
    requires i < |paths| && CannotRead(disk, paths[i])
    requires forall j :: 0 <= j < i ==> !CannotRead(disk, paths[j])
    ensures Gather(disk, paths) == Failure(paths[i])
  {
    var init := paths[..|paths| - 1];
    if i < |paths| - 1 {
      GatherStopsAtFirstUnreadable(disk, init, i);
    } else {
      assert Gather(disk, init).Success?;
    }
  }

  /** Where a header line's value comes from. */
  datatype HeaderSource = FromInfo(key: string) | Fixed(key: string, value: string)

  /** The header block of the output, in order. */
  const PluginHeaders: seq<HeaderSource> := [
    FromInfo("author"),
    FromInfo("core-version"),
    FromInfo("description"),
    FromInfo("list"),
    FromInfo("plugin-type"),
    FromInfo("title"),
    Fixed("type", "application/json"),
    FromInfo("version")
  ]

  const PluginHeaderKeys: seq<string> :=
    ["author", "core-version", "description", "list", "plugin-type", "title", "type", "version"]

  /** plugin.info has every key the header block reads from it. */
  predicate HasInfoKeys(values: map<string, string>) {
    && "author" in values && "core-version" in values && "description" in values
    && "list" in values && "plugin-type" in values && "title" in values && "version" in values
  }

  /** The value a header line takes from plugin.info. */
  function SourceValue(h: HeaderSource, info: map<string, string>): string
    requires h.FromInfo? ==> h.key in info
  {
    match h
    case FromInfo(k) => info[k]
    case Fixed(_, v) => v
  }

  /** Evaluating the header template: `plugin_info[key]` raises KeyError at
      the first key plugin.info lacks. */
  function FillHeaders(template: seq<HeaderSource>, info: map<string, string>): (r: Result<seq<(string, string)>, string>)
    ensures r.Success? <==> forall i :: 0 <= i < |template| && template[i].FromInfo? ==> template[i].key in info
    ensures r.Success? ==> |r.value| == |template|
    ensures r.Success? ==> forall i :: 0 <= i < |template| ==>
      r.value[i] == (template[i].key, SourceValue(template[i], info))
    ensures r.Failure? ==> r.error !in info
  {
    if |template| == 0 then Success([])
    else
      var init := template[..|template| - 1];
      var h := template[|template| - 1];
      match FillHeaders(init, info)
      case Failure(k) => Failure(k)
      case Success(lines) =>
        if h.FromInfo? && h.key !in info then Failure(h.key)
        else Success(lines + [(h.key, SourceValue(h, info))])
  }

  /** The KeyError names the first template key plugin.info lacks. */
  lemma {:induction false} FillHeadersFirstMissing(template: seq<HeaderSource>, info: map<string, string>, i: nat)
    requires i < |template| && template[i].FromInfo? && template[i].key !in info
    requires forall j :: 0 <= j < i && template[j].FromInfo? ==> template[j].key in info
    ensures FillHeaders(template, info) == Failure(template[i].key)
  {
    var init := template[..|template| - 1];
    if i < |template| - 1 {
      FillHeadersFirstMissing(init, info, i);
    } else {
      assert FillHeaders(init, info).Success?;
    }
  }

  lemma TemplateKeys()
    ensures |PluginHeaders| == |PluginHeaderKeys| == 8
    ensures forall i :: 0 <= i < 8 ==> PluginHeaders[i].key == PluginHeaderKeys[i]
    ensures forall i :: 0 <= i < 8 && i != 6 ==> PluginHeaders[i].FromInfo?
    ensures PluginHeaders[6] == Fixed("type", "application/json")
  {
  }

  lemma DistinctHeaderKeys()
    ensures forall i, j :: 0 <= i < j < |PluginHeaderKeys| ==> PluginHeaderKeys[i] != PluginHeaderKeys[j]
  {
  }

  /** The header block can be filled exactly when plugin.info has every key
      it reads. */
  lemma PluginHeadersFilled(values: map<string, string>)
    ensures FillHeaders(PluginHeaders, values).Success? <==> HasInfoKeys(values)
  {
    TemplateKeys();
    if HasInfoKeys(values) {
      forall i | 0 <= i < |PluginHeaders| && PluginHeaders[i].FromInfo?
        ensures PluginHeaders[i].key in values
      {
        assert PluginHeaders[i].key == PluginHeaderKeys[i];
      }
    } else {
      var i := if "author" !in values then 0
        else if "core-version" !in values then 1
        else if "description" !in values then 2
        else if "list" !in values then 3
        else if "plugin-type" !in values then 4
        else if "title" !in values then 5
        else 7;
      assert PluginHeaders[i].key == PluginHeaderKeys[i];
    }
  }

  /** The filled header block has the eight keys in their fixed order, with
      "type" always application/json. */
  lemma PluginHeadersShape(values: map<string, string>)
    requires FillHeaders(PluginHeaders, values).Success?
    ensures Keys(FillHeaders(PluginHeaders, values).value) == PluginHeaderKeys
    ensures UniqueKeys(FillHeaders(PluginHeaders, values).value)
    ensures Get(FillHeaders(PluginHeaders, values).value, "type") == Some("application/json")
  {
    var h := FillHeaders(PluginHeaders, values).value;
    TemplateKeys();
    DistinctHeaderKeys();
    assert forall i :: 0 <= i < 8 ==> h[i].0 == PluginHeaderKeys[i];
    assert Keys(h) == PluginHeaderKeys;
    assert h[6] == ("type", "application/json");
    GetAt(h, 6);
  }

  /** What a successful run writes and reports. */
  datatype Built = Built(output: string, headers: seq<(string, string)>, tiddlers: Tiddlers, untitled: seq<string>)

  /** Every listed source exists and can be read. */
  predicate AllReadable(disk: Disk, paths: seq<string>) {
    forall i :: 0 <= i < |paths| ==> Readable(disk, paths[i])
  }

  predicate SomeUnreadable(disk: Disk, paths: seq<string>) {
    exists i :: 0 <= i < |paths| && CannotRead(disk, paths[i])
  }

  /** `main`, with the serialisation of `{"tiddlers": ...}` as a parameter. */
  function Build(disk: Disk, info: InfoFile, paths: seq<string>, serialize: Tiddlers -> string): (r: Result<Built, BuildError>)
    ensures info.InfoMissing? ==> r == Failure(NoInfoFile)
    ensures info.InfoInvalid? ==> r == Failure(BadInfoJson)
    ensures r.Success? ==> info.InfoObject? && AllReadable(disk, paths)
    ensures info.InfoObject? && SomeUnreadable(disk, paths) ==> r.Failure? && r.error.ReadFailed?
    ensures r.Failure? && r.error.MissingFiles? ==>
      |r.error.paths| > 0 && forall p :: p in r.error.paths <==> p in paths && !Exists(disk, p)
    ensures r.Success? ==> Keys(r.value.headers) == PluginHeaderKeys
    ensures r.Success? ==> Get(r.value.headers, "type") == Some("application/json")
    ensures r.Success? ==> UniqueKeys(r.value.tiddlers)
    ensures r.Success? ==> r.value.tiddlers == PutAll([], TitledEntries(disk, paths))
    ensures r.Success? ==> r.value.output == RenderTid(r.value.headers, serialize(r.value.tiddlers))
  {
    match info
    case InfoMissing => Failure(NoInfoFile)
    case InfoInvalid => Failure(BadInfoJson)
    case InfoObject(values) =>
      match Gather(disk, paths)
      case Failure(p) => Failure(ReadFailed(p))
      case Success(g) =>
        GatherIsPutAll(disk, paths);
        if |g.missing| > 0 then Failure(MissingFiles(g.missing))
        else
          assert AllReadable(disk, paths) by {
            forall i | 0 <= i < |paths|
              ensures Readable(disk, paths[i])
            {
              assert paths[i] !in g.missing;
            }
          }
          PluginHeadersFilled(values);
          match FillHeaders(PluginHeaders, values)
          case Failure(k) => Failure(MissingInfoKey(k))
          case Success(headers) =>
            PluginHeadersShape(values);
            Success(Built(RenderTid(headers, serialize(g.tiddlers)), headers, g.tiddlers, g.untitled))
  }

  /** Missing sources are reported before plugin.info's keys are read: with
      every existing source readable and some source missing, the run fails
      with MissingFiles whatever plugin.info holds. */
  lemma MissingFilesFirst(disk: Disk, values: map<string, string>, paths: seq<string>, serialize: Tiddlers -> string)
    requires !SomeUnreadable(disk, paths)
    requires exists p :: p in paths && !Exists(disk, p)
    ensures var r := Build(disk, InfoObject(values), paths, serialize);
      r.Failure? && r.error.MissingFiles?
  {
    var p :| p in paths && !Exists(disk, p);
    assert Gather(disk, paths).Success?;
    assert p in Gather(disk, paths).value.missing;
  }

  lemma {:induction false} GatherNoneMissing(disk: Disk, paths: seq<string>)
    requires AllReadable(disk, paths)
    ensures Gather(disk, paths).Success? && Gather(disk, paths).value.missing == []
  {
    if |paths| > 0 {
      GatherNoneMissing(disk, paths[..|paths| - 1]);
    }
  }

  /** The run succeeds when plugin.info is a JSON object with every key the
      header block reads and every listed source can be read. */
  lemma BuildSucceeds(disk: Disk, values: map<string, string>, paths: seq<string>, serialize: Tiddlers -> string)
    requires AllReadable(disk, paths) && HasInfoKeys(values)
    ensures Build(disk, InfoObject(values), paths, serialize).Success?
  {
    GatherNoneMissing(disk, paths);
    PluginHeadersFilled(values);
  }

  /** No header key can be mistaken for the body or split wrongly. */
  lemma HeaderKeysWritable()
    ensures forall i :: 0 <= i < |PluginHeaderKeys| ==>
      && PluginHeaderKeys[i] != TextField
      && !Contains(PluginHeaderKeys[i], FieldSeparator)
      && '\n' !in PluginHeaderKeys[i]
  {
    forall i | 0 <= i < |PluginHeaderKeys|
      ensures !Contains(PluginHeaderKeys[i], FieldSeparator)
    {
      NoColonNoSeparator(PluginHeaderKeys[i]);
    }
  }

  /** Reading the written plugin back as a dialect-A tiddler gives the eight
      header fields in order and the serialised title map as its text,
      provided no plugin.info value holds a newline. */
  lemma PluginOutputRoundTrip(disk: Disk, values: map<string, string>, paths: seq<string>, serialize: Tiddlers -> string)
    requires Build(disk, InfoObject(values), paths, serialize).Success?
    requires forall k :: k in values ==> '\n' !in values[k]
    ensures var b := Build(disk, InfoObject(values), paths, serialize).value;
      ParseTid(b.output) == b.headers + [(TextField, serialize(b.tiddlers))]
  {
    var b := Build(disk, InfoObject(values), paths, serialize).value;
    BuildOutput(disk, values, paths, serialize);
    FilledHeadersWritable(values);
    TidRoundTrip(b.headers, serialize(b.tiddlers));
  }

  /** A successful run writes its header block and the serialised title map
      in dialect A. */
  lemma BuildOutput(disk: Disk, values: map<string, string>, paths: seq<string>, serialize: Tiddlers -> string)
    requires Build(disk, InfoObject(values), paths, serialize).Success?
    ensures var b := Build(disk, InfoObject(values), paths, serialize).value;
      && FillHeaders(PluginHeaders, values).Success?
      && b.headers == FillHeaders(PluginHeaders, values).value
      && b.output == RenderTid(b.headers, serialize(b.tiddlers))
  {
  }

  /** The filled header block can be written as header lines when no
      plugin.info value holds a newline. */
  lemma FilledHeadersWritable(values: map<string, string>)
    requires FillHeaders(PluginHeaders, values).Success?
    requires forall k :: k in values ==> '\n' !in values[k]
    ensures WritableHeaders(FillHeaders(PluginHeaders, values).value)
  {
    var h := FillHeaders(PluginHeaders, values).value;
    PluginHeadersShape(values);
    TemplateKeys();
    HeaderKeysWritable();
    forall i | 0 <= i < |h|
      ensures h[i].0 == PluginHeaderKeys[i] && '\n' !in h[i].1
    {
      assert h[i] == (PluginHeaders[i].key, SourceValue(PluginHeaders[i], values));
    }
  }
}

=== FILE: records.dfy ===
/** The record both parsers produce and both build scripts collect. */
module Records {
  import opened Assoc

  /** A tiddler: field names to values in first-occurrence order, always
      including the body under "text". */
  type Record = Assoc<string>

  /** The `tiddlers` collection: titles to tiddlers, in the order the titles
      were first assigned. */
  type Tiddlers = Assoc<Record>

  const TextField: string := "text"
  const TitleField: string := "title"
}

=== FILE: sorting.dfy ===
/** Python's `sorted` on a list of str: code-point-wise lexicographic order,
    a proper prefix first. */
module Sorting {

  /** a <= b in Python's str ordering. */
  predicate LexLe(a: string, b: string)
    decreases |a|
  {
    |a| == 0 || (|b| > 0 && (a[0] < b[0] || (a[0] == b[0] && LexLe(a[1..], b[1..]))))
  }

  lemma {:induction false} LexLeTotal(a: string, b: string)
    ensures LexLe(a, b) || LexLe(b, a)
    decreases |a|
  {
    if |a| > 0 && |b| > 0 && a[0] == b[0] {
      LexLeTotal(a[1..], b[1..]);
    }
  }

  lemma {:induction false} LexLeAntisymmetric(a: string, b: string)
    requires LexLe(a, b) && LexLe(b, a)
    ensures a == b
    decreases |a|
  {
    if |a| > 0 {
      LexLeAntisymmetric(a[1..], b[1..]);
      assert a == [a[0]] + a[1..] && b == [b[0]] + b[1..];
    }
  }

  lemma {:induction false} LexLeTransitive(a: string, b: string, c: string)
    requires LexLe(a, b) && LexLe(b, c)
    ensures LexLe(a, c)
    decreases |a|
  {
    if |a| > 0 && a[0] == b[0] && b[0] == c[0] {
      LexLeTransitive(a[1..], b[1..], c[1..]);
    }
  }

  predicate Sorted(s: seq<string>) {
    forall i, j :: 0 <= i < j < |s| ==> LexLe(s[i], s[j])
  }

  /** x placed before the first element it is not above. */
  function Insert(x: string, s: seq<string>): (r: seq<string>)
    requires Sorted(s)
    ensures Sorted(r)
    ensures multiset(r) == multiset(s) + multiset{x}
  {
    if |s| == 0 then [x]
    else if LexLe(x, s[0]) then
      BelowAll(x, s);
      [x] + s
    else
      var tail := Insert(x, s[1..]);
      LexLeTotal(x, s[0]);
      assert s == [s[0]] + s[1..];
      HeadBelowInserted(x, s, tail);
      [s[0]] + tail
  }

  /** Below the first element of a sorted sequence is below all of them. */
  lemma BelowAll(x: string, s: seq<string>)
    requires Sorted(s) && |s| > 0 && LexLe(x, s[0])
    ensures forall j :: 0 <= j < |s| ==> LexLe(x, s[j])
  {
    forall j | 0 < j < |s|
      ensures LexLe(x, s[j])
    {
      LexLeTransitive(x, s[0], s[j]);
    }
  }

  /** The first element of a sorted sequence is below everything the rest
      holds once x, which it is below, is inserted there. */
  lemma HeadBelowInserted(x: string, s: seq<string>, tail: seq<string>)
    requires Sorted(s) && |s| > 0 && LexLe(s[0], x)
    requires multiset(tail) == multiset(s[1..]) + multiset{x}
    ensures forall j :: 0 <= j < |tail| ==> LexLe(s[0], tail[j])
  {
    forall j | 0 <= j < |tail|
      ensures LexLe(s[0], tail[j])
    {
      assert tail[j] in multiset(tail);
      if tail[j] != x {
        assert tail[j] in multiset(s[1..]);
        var k :| 0 <= k < |s[1..]| && s[1..][k] == tail[j];
        assert s[k + 1] == tail[j];
      }
    }
  }

  /** `sorted(xs)`. */
  function Sort(xs: seq<string>): (r: seq<string>)
    ensures Sorted(r)
    ensures multiset(r) == multiset(xs)
  {
    if |xs| == 0 then []
    else
      assert xs == xs[..|xs| - 1] + [xs[|xs| - 1]];
      Insert(xs[|xs| - 1], Sort(xs[..|xs| - 1]))
  }

  /** A sorted arrangement of a multiset is unique: two sorted sequences
      holding the same elements are equal. */
  lemma {:induction false} SortedUnique(a: seq<string>, b: seq<string>)
    requires Sorted(a) && Sorted(b) && multiset(a) == multiset(b)
    ensures a == b
    decreases |a|
  {
    if |a| > 0 {
      assert |b| == |a| by {
        assert |multiset(a)| == |a| && |multiset(b)| == |b|;
      }
      assert a[0] in multiset(b) && b[0] in multiset(a);
      var i :| 0 <= i < |b| && b[i] == a[0];
      var j :| 0 <= j < |a| && a[j] == b[0];
      if i > 0 && j > 0 {
        assert LexLe(b[0], b[i]) && LexLe(a[0], a[j]);
        LexLeAntisymmetric(a[0], b[0]);
      }
      assert a[0] == b[0];
      MultisetTail(a);
      MultisetTail(b);
      SortedUnique(a[1..], b[1..]);
    }
  }

  lemma MultisetTail(a: seq<string>)
    requires |a| > 0
    ensures multiset(a[1..]) == multiset(a) - multiset{a[0]}
  {
    assert a == [a[0]] + a[1..];
  }

  /** `sorted` does not depend on the order of its input. */
  lemma SortIgnoresOrder(xs: seq<string>, ys: seq<string>)
    requires multiset(xs) == multiset(ys)
    ensures Sort(xs) == Sort(ys)
  {
    SortedUnique(Sort(xs), Sort(ys));
  }
}

=== FILE: sources.dfy ===
/** Reading one source file and parsing it in its dialect. The two build
    scripts carry identical parsers and differ only in what a failed read
    does: create-plugin-tid.py ends the run, convert-to-json.py reports the
    file and carries on. */
module Sources {
  import opened Wrappers
  import opened Strings
  import opened Assoc
  import opened Records
  import opened TidFormat
  import opened JsFormat

  /** The files as the scripts see them. A path absent from the map does not
      exist; None is a file that exists but cannot be read (a directory, no
      permission, bytes that are not UTF-8); Some(c) is a file whose text is c
      after the newline translation of a text-mode read, which turns "\r\n"
      and a lone "\r" into "\n". */
  type Disk = map<string, Option<string>>

  predicate Exists(disk: Disk, path: string) {
    path in disk
  }

  predicate Readable(disk: Disk, path: string) {
    path in disk && disk[path].Some?
  }

  /** A file that exists but whose read raises. */
  predicate CannotRead(disk: Disk, path: string) {
    path in disk && disk[path].None?
  }

  datatype Dialect = Tid | Js

  /** create-plugin-tid.py picks the parser by the ".js" suffix. */
  function DialectOf(path: string): (d: Dialect)
    ensures d == Js <==> EndsWith(path, ".js")
  {
    if EndsWith(path, ".js") then Js else Tid
  }

  /** A parsed record always carries "text" and never repeats a key; being
      non-empty, it is a truthy dict. */
  function Parse(d: Dialect, content: string): (r: Record)
    ensures UniqueKeys(r)
    ensures TextField in Keys(r)
    ensures |r| >= 1
  {
    match d
    case Tid => ParseTid(content)
    case Js => ParseJs(content)
  }

  /** A file's text is parsed as dialect B exactly when its path ends in
      ".js", and as dialect A otherwise. */
  lemma ParsedByExtension(path: string, content: string)
    ensures Parse(DialectOf(path), content) == if EndsWith(path, ".js") then ParseJs(content) else ParseTid(content)
  {
  }

  datatype ReadError = NotFound(path: string) | Unreadable(path: string)

  /** The parse functions of create-plugin-tid.py: a failed read exits. */
  function ReadStrict(disk: Disk, d: Dialect, path: string): (r: Result<Record, ReadError>)
    ensures r.Success? <==> Readable(disk, path)
    ensures r.Failure? ==> r.error.path == path
    ensures r.Failure? ==> (r.error.NotFound? <==> !Exists(disk, path))
  {
    if path !in disk then Failure(NotFound(path))
    else match disk[path]
      case None => Failure(Unreadable(path))
      case Some(content) => Success(Parse(d, content))
  }

  /** The parse functions of convert-to-json.py: a failed read gives None. */
  function ReadSoft(disk: Disk, d: Dialect, path: string): (r: Option<Record>)
    ensures r.Some? <==> Readable(disk, path)
  {
    if Readable(disk, path) then Some(Parse(d, disk[path].value)) else None
  }

  /** On the same file both scripts produce the same record; they differ
      only in what happens when the read fails. */
  lemma StrictAndSoftAgree(disk: Disk, d: Dialect, path: string)
    ensures ReadSoft(disk, d, path).Some? <==> ReadStrict(disk, d, path).Success?
    ensures ReadStrict(disk, d, path).Success? ==>
      ReadSoft(disk, d, path) == Some(ReadStrict(disk, d, path).value)
  {
  }
}

=== FILE: strings.dfy ===
/** The string operations both scripts and both browser modules are built
    from: whitespace stripping, splitting at the first occurrence of a
    separator, splitting into lines, joining, and decimal rendering. */
module Strings {
  import opened Wrappers

  /** Whitespace removed by Python's str.strip() and JavaScript's trim().
      Both languages strip more than this: Python also the separators U+001C
      to U+001F, and both of them non-ASCII spaces such as U+00A0. The model
      strips only the six ASCII characters below. */
  predicate IsSpace(c: char) {
    c == ' ' || c == '\t' || c == '\n' || c == '\r' || c == '\U{000B}' || c == '\U{000C}'
  }

  predicate AllSpace(s: string) {
    forall i :: 0 <= i < |s| ==> IsSpace(s[i])
  }

  /** Neither end of s is whitespace. */
  predicate IsStripped(s: string) {
    |s| == 0 || (!IsSpace(s[0]) && !IsSpace(s[|s| - 1]))
  }

  /** Number of whitespace characters at the start of s. */
  function LeadingSpaces(s: string): (n: nat)
    ensures n <= |s|
    ensures forall k :: 0 <= k < n ==> IsSpace(s[k])
    ensures n < |s| ==> !IsSpace(s[n])
  {
    if |s| == 0 || !IsSpace(s[0]) then 0 else 1 + LeadingSpaces(s[1..])
  }

  /** Number of whitespace characters at the end of s. */
  function TrailingSpaces(s: string): (n: nat)
    ensures n <= |s|
    ensures forall k :: |s| - n <= k < |s| ==> IsSpace(s[k])
    ensures n < |s| ==> !IsSpace(s[|s| - n - 1])
  {
    if |s| == 0 || !IsSpace(s[|s| - 1]) then 0 else 1 + TrailingSpaces(s[..|s| - 1])
  }

  /** The text between the leading and the trailing run of whitespace. */
  function Inner(s: string): string {
    var lead := LeadingSpaces(s);
    s[lead..|s| - TrailingSpaces(s[lead..])]
  }

  /** A non-space character lies between the two runs and is kept. */
  lemma InnerKeeps(s: string, i: nat)
    requires i < |s| && !IsSpace(s[i])
    ensures s[i] in Inner(s)
  {
    var lead := LeadingSpaces(s);
    var t := s[lead..];
    assert t[i - lead] == s[i];
    assert Inner(s)[i - lead] == s[i];
  }

  lemma InnerIsStripped(s: string)
    ensures IsStripped(Inner(s))
  {
    var lead := LeadingSpaces(s);
    var t := s[lead..];
    var r := Inner(s);
    if |r| > 0 {
      assert r[0] == s[lead];
      assert r[|r| - 1] == t[|t| - TrailingSpaces(t) - 1];
    }
  }

  lemma InnerOfStripped(s: string)
    requires IsStripped(s)
    ensures Inner(s) == s
  {
    if |s| > 0 {
      assert LeadingSpaces(s) == 0;
      assert s[0..] == s;
    }
  }

  lemma InnerEmpty(s: string)
    ensures Inner(s) == [] <==> AllSpace(s)
  {
    if !AllSpace(s) {
      var i :| 0 <= i < |s| && !IsSpace(s[i]);
      InnerKeeps(s, i);
    }
  }

  /** Inner(s) is a slice of s with only whitespace on either side. */
  lemma InnerBetweenSpaces(s: string)
    ensures exists i, j :: 0 <= i <= j <= |s| && Inner(s) == s[i..j] && AllSpace(s[..i]) && AllSpace(s[j..])
  {
    var lead := LeadingSpaces(s);
    var t := s[lead..];
    var end := |s| - TrailingSpaces(t);
    assert AllSpace(s[..lead]);
    assert AllSpace(s[end..]) by {
      forall k | 0 <= k < |s| - end
        ensures IsSpace(s[end..][k])
      {
        assert s[end..][k] == t[end - lead + k];
      }
    }
    assert Inner(s) == s[lead..end];
  }

  /** Python's str.strip() / JavaScript's String.prototype.trim(): the
      text between the leading and the trailing run of whitespace. */
  function Strip(s: string): (r: string)
    ensures IsStripped(r)
    ensures IsStripped(s) ==> r == s
    ensures forall i :: 0 <= i < |s| && !IsSpace(s[i]) ==> s[i] in r
    ensures r == [] <==> AllSpace(s)
  {
    InnerIsStripped(s);
    InnerEmpty(s);
    if IsStripped(s) then InnerOfStripped(s); s
    else
      assert forall i :: 0 <= i < |s| && !IsSpace(s[i]) ==> s[i] in Inner(s) by {
        forall i | 0 <= i < |s| && !IsSpace(s[i]) {
          InnerKeeps(s, i);
        }
      }
      Inner(s)
  }

  /** Strip removes whitespace only, and only at the two ends: its result is
      a slice of s with nothing but whitespace on either side. */
  lemma StripBetweenSpaces(s: string)
    ensures exists i, j :: 0 <= i <= j <= |s| && Strip(s) == s[i..j] && AllSpace(s[..i]) && AllSpace(s[j..])
  {
    if IsStripped(s) {
      assert Strip(s) == s[0..|s|] && AllSpace(s[..0]) && AllSpace(s[|s|..]);
    } else {
      InnerBetweenSpaces(s);
    }
  }

  /** Every character Strip keeps comes from s. */
  lemma StripKeepsOnlyChars(s: string, c: char)
    requires c !in s
    ensures c !in Strip(s)
  {
    if !IsStripped(s) {
      var lead := LeadingSpaces(s);
      var r := Inner(s);
      forall i | 0 <= i < |r|
        ensures r[i] != c
      {
        assert r[i] == s[lead + i];
        assert s[lead + i] in s;
      }
    }
  }

  /** Stripping twice is stripping once. */
  lemma StripIdempotent(s: string)
    ensures Strip(Strip(s)) == Strip(s)
  {
  }

  /** pat occurs in s starting at index i. */
  predicate OccursAt(s: string, pat: string, i: nat) {
    i + |pat| <= |s| && s[i..i + |pat|] == pat
  }

  /** Python's `pat in s`. */
  predicate Contains(s: string, pat: string) {
    exists i: nat :: i <= |s| && OccursAt(s, pat, i)
  }

  /** The first occurrence of pat in s at or after from (str.find). */
  function FindFrom(s: string, pat: string, from: nat): (r: Option<nat>)
    ensures r.Some? ==> from <= r.value && OccursAt(s, pat, r.value)
    ensures r.Some? ==> forall k: nat :: from <= k < r.value ==> !OccursAt(s, pat, k)
    ensures r.None? ==> forall k: nat :: from <= k ==> !OccursAt(s, pat, k)
    decreases |s| - from
  {
    if from + |pat| > |s| then None
    else if s[from..from + |pat|] == pat then Some(from)
    else FindFrom(s, pat, from + 1)
  }

  /** Python's `s.split(sep, 1)` when it yields two parts: the text before
      the first occurrence of sep and the text after it; None when sep does
      not occur and the split yields s alone. */
  function Cut(s: string, sep: string): (r: Option<(string, string)>)
    ensures r.Some? <==> Contains(s, sep)
    ensures r.Some? ==> s == r.value.0 + sep + r.value.1
    ensures r.Some? ==> forall k: nat :: k < |r.value.0| ==> !OccursAt(s, sep, k)
    ensures r.Some? && |sep| > 0 ==> !Contains(r.value.0, sep)
  {
    match FindFrom(s, sep, 0)
    case None => None
    case Some(i) =>
      var before, after := s[..i], s[i + |sep|..];
      assert s == before + sep + after by {
        assert s == s[..i] + s[i..i + |sep|] + s[i + |sep|..];
      }
      assert forall k: nat :: OccursAt(before, sep, k) ==> OccursAt(s, sep, k) by {
        forall k: nat | OccursAt(before, sep, k)
          ensures OccursAt(s, sep, k)
        {
          assert before[k..k + |sep|] == s[k..k + |sep|];
        }
      }
      Some((before, after))
  }

  /** Where the first separator falls is determined by the text around it:
      if sep occurs at |before| in s and nowhere earlier, Cut returns exactly
      that split. */
  lemma CutAt(s: string, sep: string, before: string, after: string)
    requires s == before + sep + after
    requires forall k: nat :: k < |before| ==> !OccursAt(s, sep, k)
    ensures Cut(s, sep) == Some((before, after))
  {
    assert OccursAt(s, sep, |before|) by {
      assert s[|before|..|before| + |sep|] == sep;
    }
    var r := Cut(s, sep);
    assert r.Some?;
    assert |r.value.0| == |before|;
    assert r.value.0 == s[..|before|] == before;
    assert r.value.1 == s[|before| + |sep|..] == after;
  }

  /** The first occurrence of ": " in `key + ": " + value` is the one after
      key, provided key does not itself contain ": ". */
  lemma CutColonSpace(key: string, value: string)
    requires !Contains(key, ": ")
    ensures Cut(key + ": " + value, ": ") == Some((key, value))
  {
    var s := key + ": " + value;
    forall k: nat | k < |key|
      ensures !OccursAt(s, ": ", k)
    {
      if k + 2 <= |key| {
        assert s[k..k + 2] == key[k..k + 2];
        assert !OccursAt(key, ": ", k);
      } else {
        assert s[k + 1] == ':';
      }
    }
    CutAt(s, ": ", key, value);
  }

  /** A string without ':' cannot contain ": ". */
  lemma NoColonNoSeparator(s: string)
    requires ':' !in s
    ensures !Contains(s, ": ")
  {
    forall k: nat | k + 2 <= |s|
      ensures !OccursAt(s, ": ", k)
    {
      assert s[k..k + 2][0] == s[k];
      assert s[k] in s;
    }
  }

  /** Index of the first c in s. */
  function IndexOfChar(s: string, c: char): (i: nat)
    requires c in s
    ensures i < |s| && s[i] == c && c !in s[..i]
  {
    if s[0] == c then 0
    else
      var i := 1 + IndexOfChar(s[1..], c);
      assert s[..i] == [s[0]] + s[1..][..i - 1];
      i
  }

  /** Any index holding the first c is the one IndexOfChar finds. */
  lemma {:induction false} IndexOfCharUnique(s: string, c: char, j: nat)
    requires j < |s| && s[j] == c && c !in s[..j]
    ensures IndexOfChar(s, c) == j
  {
    if j > 0 {
      assert s[0] == s[..j][0];
      assert s[1..][..j - 1] == s[1..j];
      assert forall k :: 0 <= k < j - 1 ==> s[1..j][k] == s[..j][k + 1];
      IndexOfCharUnique(s[1..], c, j - 1);
    }
  }

  /** Python's `s.split(sep)` for a one-character separator: the pieces
      between consecutive separators, always at least one. */
  function Split(s: string, sep: char): (r: seq<string>)
    ensures |r| >= 1
    decreases |s|
  {
    if sep !in s then [s]
    else
      var i := IndexOfChar(s, sep);
      [s[..i]] + Split(s[i + 1..], sep)
  }

  /** No piece contains the separator. */
  lemma {:induction false} SplitPieces(s: string, sep: char)
    ensures forall i :: 0 <= i < |Split(s, sep)| ==> sep !in Split(s, sep)[i]
    decreases |s|
  {
    if sep in s {
      var i := IndexOfChar(s, sep);
      SplitUnfold(s, sep);
      SplitPieces(s[i + 1..], sep);
    }
  }

  /** Python's `sep.join(parts)` / JavaScript's `parts.join(sep)`. */
  function Join(parts: seq<string>, sep: string): string
  {
    if |parts| == 0 then ""
    else if |parts| == 1 then parts[0]
    else parts[0] + sep + Join(parts[1..], sep)
  }

  lemma JoinAppend(parts: seq<string>, last: string, sep: string)
    requires |parts| >= 1
    ensures Join(parts + [last], sep) == Join(parts, sep) + sep + last
    decreases |parts|
  {
    if |parts| == 1 {
      assert parts + [last] == [parts[0], last];
    } else {
      assert (parts + [last])[1..] == parts[1..] + [last];
      JoinAppend(parts[1..], last, sep);
    }
  }

  lemma JoinConcat(a: seq<string>, b: seq<string>, sep: string)
    requires |a| >= 1 && |b| >= 1
    ensures Join(a + b, sep) == Join(a, sep) + sep + Join(b, sep)
    decreases |a|
  {
    if |a| == 1 {
      assert (a + b)[1..] == b;
    } else {
      assert (a + b)[1..] == a[1..] + b;
      JoinConcat(a[1..], b, sep);
    }
  }

  /** One step of Split: the piece before the first separator, then the
      split of the rest. */
  lemma SplitUnfold(s: string, c: char)
    requires c in s
    ensures Split(s, c) == [s[..IndexOfChar(s, c)]] + Split(s[IndexOfChar(s, c) + 1..], c)
  {
  }

  lemma JoinCons(x: string, rest: seq<string>, sep: string)
    requires |rest| >= 1
    ensures Join([x] + rest, sep) == x + sep + Join(rest, sep)
  {
    assert ([x] + rest)[1..] == rest;
  }

  /** Splitting at an inserted separator splits the two sides independently. */
  lemma {:induction false} SplitAround(a: string, b: string, c: char)
    ensures Split(a + [c] + b, c) == Split(a, c) + Split(b, c)
    decreases |a|
  {
    if c !in a {
      SplitAtFirst(a, b, c);
      assert Split(a, c) == [a];
    } else {
      var j := IndexOfChar(a, c);
      var rest := a[j + 1..];
      SplitPastFirst(a, b, c);
      SplitUnfold(a, c);
      SplitAround(rest, b, c);
      AppendAssoc([a[..j]], Split(rest, c), Split(b, c));
    }
  }

  lemma AppendAssoc<T>(x: seq<T>, y: seq<T>, z: seq<T>)
    ensures x + (y + z) == (x + y) + z
  {
  }

  /** When a holds a separator, the first piece ends at a's first one. */
  lemma SplitPastFirst(a: string, b: string, c: char)
    requires c in a
    ensures var j := IndexOfChar(a, c);
      Split(a + [c] + b, c) == [a[..j]] + Split(a[j + 1..] + [c] + b, c)
  {
    var s := a + [c] + b;
    var j := IndexOfChar(a, c);
    assert s[..j] == a[..j];
    IndexOfCharUnique(s, c, j);
    SplitUnfold(s, c);
    assert s[j + 1..] == a[j + 1..] + [c] + b;
  }

  /** When a holds no separator, the first piece is a. */
  lemma SplitAtFirst(a: string, b: string, c: char)
    requires c !in a
    ensures Split(a + [c] + b, c) == [a] + Split(b, c)
  {
    var s := a + [c] + b;
    assert s[..|a|] == a;
    IndexOfCharUnique(s, c, |a|);
    SplitUnfold(s, c);
    assert s[|a| + 1..] == b;
  }

  /** Joining the pieces with the separator gives back the original text. */
  lemma {:induction false} JoinSplit(s: string, c: char)
    ensures Join(Split(s, c), [c]) == s
    decreases |s|
  {
    if c in s {
      var i := IndexOfChar(s, c);
      var tail := s[i + 1..];
      JoinSplit(tail, c);
      SplitUnfold(s, c);
      JoinCons(s[..i], Split(tail, c), [c]);
      assert s == s[..i] + [c] + tail;
    }
  }

  /** Splitting lines joined by the separator gives back the lines, provided
      no line contains the separator. */
  lemma {:induction false} SplitJoin(parts: seq<string>, c: char)
    requires |parts| >= 1
    requires forall i :: 0 <= i < |parts| ==> c !in parts[i]
    ensures Split(Join(parts, [c]), c) == parts
    decreases |parts|
  {
    if |parts| > 1 {
      SplitAround(parts[0], Join(parts[1..], [c]), c);
      SplitJoin(parts[1..], c);
      assert parts == [parts[0]] + parts[1..];
    }
  }

  /** s ends with suffix (str.endswith). */
  predicate EndsWith(s: string, suffix: string) {
    |suffix| <= |s| && s[|s| - |suffix|..] == suffix
  }

  predicate IsDigit(c: char) {
    '0' <= c <= '9'
  }

  predicate AllDigits(s: string) {
    forall i :: 0 <= i < |s| ==> IsDigit(s[i])
  }

  function DigitChar(d: nat): (c: char)
    requires d < 10
    ensures IsDigit(c)
  {
    ('0' as int + d) as char
  }

  /** The value of a string of decimal digits. */
  function DigitsValue(s: string): nat
    requires AllDigits(s)
  {
    if |s| == 0 then 0
    else DigitsValue(s[..|s| - 1]) * 10 + (s[|s| - 1] as int - '0' as int)
  }

  /** JavaScript's rendering of a non-negative integer in a template
      literal: decimal digits without leading zeros. */
  function NatToString(n: nat): (r: string)
    ensures |r| >= 1 && AllDigits(r)
    ensures r[0] == '0' ==> r == "0"
  {
    if n < 10 then [DigitChar(n)]
    else NatToString(n / 10) + [DigitChar(n % 10)]
  }

  /** Reading the decimal rendering back gives the number. */
  lemma {:induction false} NatToStringRoundTrip(n: nat)
    ensures DigitsValue(NatToString(n)) == n
  {
    if n >= 10 {
      var r := NatToString(n);
      assert r[..|r| - 1] == NatToString(n / 10);
      NatToStringRoundTrip(n / 10);
    }
  }

  /** JavaScript's `String(i)` for an integer. */
  function IntToString(i: int): (r: string)
    ensures |r| >= 1
    ensures i >= 0 ==> AllDigits(r)
    ensures i < 0 ==> r[0] == '-' && AllDigits(r[1..])
  {
    if i < 0 then "-" + NatToString(-i) else NatToString(i)
  }

  /** Reading an optionally signed decimal integer back. */
  function ReadInt(s: string): Option<int>
  {
    if |s| >= 2 && s[0] == '-' && AllDigits(s[1..]) then Some(-(DigitsValue(s[1..]) as int))
    else if |s| >= 1 && AllDigits(s) then Some(DigitsValue(s))
    else None
  }

  /** The rendering of an integer reads back as that integer. */
  lemma IntToStringRoundTrip(i: int)
    ensures ReadInt(IntToString(i)) == Some(i)
  {
    var r := IntToString(i);
    if i < 0 {
      var d := NatToString(-i);
      assert r == "-" + d;
      assert r[1..] == d;
      NatToStringRoundTrip(-i);
      assert ReadInt(r) == Some(-(DigitsValue(d) as int));
    } else {
      assert IsDigit(r[0]);
      NatToStringRoundTrip(i);
      assert ReadInt(r) == Some(DigitsValue(r));
    }
  }
}

=== FILE: test_action.dfy ===
/** The 'action-test-cloudflare' widget: it checks the saver's configuration,
    asks for the password, sends one request and reports the result in a
    modal. The prompt answer and what the request came back with are inputs. */
module TestAction {
  import opened Wrappers
  import opened Strings
  import opened Assoc
  import opened Records
  import opened CloudflareSaver

  /** How the request's promise chain settled. `Rejected` covers every other
      rejection with its `message`: a failed fetch, and a body that could not
      be read or, on an ok response, parsed. */
  datatype Reply =
    | Ok(commit: Option<string>)
    | Refused(status: nat, statusText: string, body: ErrorBody)
    | Aborted
    | Rejected(message: string)

  /** What the widget posts: the password, with retry count 0. */
  datatype TestRequest = TestRequest(endpoint: string, password: string, timeoutMs: int, retryCount: nat)

  /** A call of `showAlert`: the message and its type. */
  datatype Alert = Alert(message: string, kind: string)

  /** What `invokeAction` returned, whether a request went out, the
      notifications shown and the alert. */
  datatype TestRun = TestRun(returned: bool, request: Option<TestRequest>, notifications: seq<string>, alert: Alert)

  const NotificationPrefix: string := "$:/plugins/collaborative-blog/notifications/"
  const SavingNotice: string := NotificationPrefix + "saving"
  const SuccessNotice: string := NotificationPrefix + "success"
  const FailureNotice: string := NotificationPrefix + "failure"

  const NotEnabledMessage: string := "Cloudflare Saver is not enabled. Please enable it in the settings above."
  const NoEndpointMessage: string := "No Cloudflare Function endpoint configured. Please enter your endpoint URL above."
  const NoPasswordMessage: string := "Test cancelled - no password provided."

  const ServerChecklist: string :=
    "\U{2022} Endpoint URL is correct\n\U{2022} Password matches SAVE_PASSWORD in Cloudflare\n"
    + "\U{2022} Environment variables are configured\n\U{2022} Cloudflare Function is deployed"
  const NetworkChecklist: string :=
    "\U{2022} Internet connection\n\U{2022} Endpoint URL is accessible\n"
    + "\U{2022} CORS is configured to allow your origin\n\U{2022} Cloudflare Function is deployed"

  const FailedHead: string := "Test failed\n\nError: "

  /** `data.commit || 'N/A'`: the commit when it is a non-empty string,
      "N/A" when it is missing or empty. */
  function CommitText(commit: Option<string>): (r: string)
    ensures commit.Some? && commit.value != "" ==> r == commit.value
    ensures commit.None? || commit.value == "" ==> r == "N/A"
  {
    if commit.Some? && commit.value != "" then commit.value else "N/A"
  }

  const SuccessHead: string := "Test successful\n\nConnection to Cloudflare Function verified.\nCommit SHA: "
  const SuccessTail: string := "\n\nYour Cloudflare Saver is configured correctly."

  function SuccessMessage(commit: Option<string>): string {
    SuccessHead + CommitText(commit) + SuccessTail
  }

  /** The success report reads back: the commit (or "N/A") sits right after
      "Commit SHA: ", between the fixed head and tail. */
  lemma SuccessShowsCommit(commit: Option<string>)
    ensures var m := SuccessMessage(commit);
      var n := |SuccessHead|;
      var c := CommitText(commit);
      n + |c| <= |m| && m[..n] == SuccessHead && m[n..n + |c|] == c && m[n + |c|..] == SuccessTail
    ensures var m := SuccessMessage(commit);
      var n := |SuccessHead|;
      commit.Some? && commit.value != "" ==> n + |commit.value| <= |m| && m[n..n + |commit.value|] == commit.value
    ensures var m := SuccessMessage(commit);
      var n := |SuccessHead|;
      commit.None? || commit.value == "" ==> n + 3 <= |m| && m[n..n + 3] == "N/A"
  {
    ThreeParts(SuccessHead, CommitText(commit), SuccessTail);
  }

  function FailedMessage(detail: string, checklist: string): string {
    FailedHead + detail + "\n\nPlease check:\n" + checklist
  }

  /** A failure report reads back: the error detail follows the head, the
      checklist ends the message, and for a given checklist two reports are
      equal only when their details are. */
  lemma FailedMessageParts(detail: string, checklist: string, other: string)
    ensures var m := FailedMessage(detail, checklist);
      var n := |FailedHead|;
      n + |detail| + |checklist| <= |m| && m[..n] == FailedHead && m[n..n + |detail|] == detail
      && m[|m| - |checklist|..] == checklist
    ensures FailedMessage(detail, checklist) == FailedMessage(other, checklist) ==> detail == other
  {
    var m := FailedMessage(detail, checklist);
    var n := |FailedHead|;
    var mid := "\n\nPlease check:\n";
    assert m == FailedHead + detail + mid + checklist;
    assert m[..n] == FailedHead;
    assert m[n..n + |detail|] == detail;
    assert m[|m| - |checklist|..] == checklist;
    if m == FailedMessage(other, checklist) {
      assert |other| == |detail|;
      assert FailedMessage(other, checklist)[n..n + |other|] == other;
    }
  }

  /** The error shown for a non-ok response: the JSON `error` when there is
      one, otherwise "HTTP <status> <statusText>". */
  function RefusedDetail(status: nat, statusText: string, body: ErrorBody): (detail: string)
    ensures body.JsonBody? && body.error.Some? && body.error.value != "" ==> detail == body.error.value
  {
    if body.JsonBody? && body.error.Some? && body.error.value != "" then body.error.value
    else "HTTP " + NatToString(status) + " " + statusText
  }

  /** The alert that reports how the request settled. */
  function ReplyAlert(reply: Reply): (a: Alert)
    ensures a.kind == (if reply.Ok? then "success" else "error")
    ensures !reply.Ok? ==> |FailedHead| <= |a.message| && a.message[..|FailedHead|] == FailedHead
  {
    match reply
    case Ok(commit) => Alert(SuccessMessage(commit), "success")
    case Refused(status, statusText, body) =>
      var detail := RefusedDetail(status, statusText, body);
      FailedMessageParts(detail, ServerChecklist, detail);
      Alert(FailedMessage(detail, ServerChecklist), "error")
    case Aborted =>
      FailedMessageParts("Request timeout", NetworkChecklist, "");
      Alert(FailedMessage("Request timeout", NetworkChecklist), "error")
    case Rejected(message) =>
      FailedMessageParts(message, NetworkChecklist, message);
      Alert(FailedMessage(message, NetworkChecklist), "error")
  }

  /** The alert names what went wrong and what to check: the server checklist
      for a refused request, the network checklist otherwise. */
  lemma ReplyAlertReports(reply: Reply)
    ensures var a := ReplyAlert(reply);
      && (reply.Ok? ==> a.message == SuccessMessage(reply.commit))
      && (reply.Refused? ==> a.message == FailedMessage(RefusedDetail(reply.status, reply.statusText, reply.body), ServerChecklist))
      && (reply.Aborted? ==> a.message == FailedMessage("Request timeout", NetworkChecklist))
      && (reply.Rejected? ==> a.message == FailedMessage(reply.message, NetworkChecklist))
    ensures reply.Ok? ==> var m := ReplyAlert(reply).message;
      var n := |SuccessHead|;
      var c := if reply.commit.Some? && reply.commit.value != "" then reply.commit.value else "N/A";
      n + |c| <= |m| && m[..n] == SuccessHead && m[n..n + |c|] == c
  {
    if reply.Ok? {
      OkAlertShowsCommit(reply.commit);
    }
  }

  /** An ok reply's report shows the commit right after "Commit SHA: ", or
      "N/A" when the reply names none. */
  lemma OkAlertShowsCommit(commit: Option<string>)
    ensures var m := ReplyAlert(Reply.Ok(commit)).message;
      var n := |SuccessHead|;
      var c := CommitText(commit);
      n + |c| <= |m| && m[..n] == SuccessHead && m[n..n + |c|] == c
      && (commit.Some? && commit.value != "" ==> c == commit.value)
      && (commit.None? || commit.value == "" ==> c == "N/A")
  {
    SuccessShowsCommit(commit);
  }

  /** Read back from the alert: a refused request's report ends with the
      server checklist and carries the refusal's detail after the failure
      heading. */
  lemma RefusedAlertParts(status: nat, statusText: string, body: ErrorBody)
    ensures var m := ReplyAlert(Refused(status, statusText, body)).message;
      var detail := RefusedDetail(status, statusText, body);
      var n := |FailedHead|;
      EndsWith(m, ServerChecklist) && n + |detail| <= |m| && m[n..n + |detail|] == detail
  {
    var detail := RefusedDetail(status, statusText, body);
    FailedMessageParts(detail, ServerChecklist, detail);
  }

  /** A network failure's report ends with the network checklist and carries
      the failure's own message after the failure heading. */
  lemma RejectedAlertParts(message: string)
    ensures var m := ReplyAlert(Rejected(message)).message;
      var n := |FailedHead|;
      EndsWith(m, NetworkChecklist) && n + |message| <= |m| && m[n..n + |message|] == message
  {
    FailedMessageParts(message, NetworkChecklist, message);
  }

  /** `invokeAction`, with `parseInt`, the prompt's answer (None when
      dismissed) and the settled reply as inputs. */
  function InvokeAction(wiki: Wiki, parseInt: string -> Option<int>, answer: Option<string>, reply: Reply): (r: TestRun)
    ensures r.returned
    ensures r.request.Some? <==> Enabled(wiki) && !Blank(Endpoint(wiki)) && answer.Some? && answer.value != ""
    ensures r.request.Some? ==> r.request.value == TestRequest(Endpoint(wiki), answer.value, LoadConfig(wiki, parseInt).timeoutMs, 0)
    ensures !Enabled(wiki) ==> r.alert == Alert(NotEnabledMessage, "error")
    ensures Enabled(wiki) && Blank(Endpoint(wiki)) ==> r.alert == Alert(NoEndpointMessage, "error")
    ensures Enabled(wiki) && !Blank(Endpoint(wiki)) && (answer.None? || answer.value == "") ==>
      r.alert == Alert(NoPasswordMessage, "info")
    ensures r.request.None? ==> r.notifications == []
    ensures r.request.Some? ==> r.notifications == [SavingNotice, if reply.Ok? then SuccessNotice else FailureNotice]
    ensures r.request.Some? ==> r.alert == ReplyAlert(reply)
  {
    var endpoint := GetText(wiki, EndpointTitle, "");
    var enabled := GetText(wiki, EnabledTitle, "no") == "yes";
    if !enabled then TestRun(true, None, [], Alert(NotEnabledMessage, "error"))
    else if endpoint == "" || Strip(endpoint) == "" then TestRun(true, None, [], Alert(NoEndpointMessage, "error"))
    else if answer.None? || answer.value == "" then TestRun(true, None, [], Alert(NoPasswordMessage, "info"))
    else
      var timeout := TimeoutMs(parseInt(GetText(wiki, TimeoutTitle, "30")));
      var settled := if reply.Ok? then SuccessNotice else FailureNotice;
      TestRun(true, Some(TestRequest(endpoint, answer.value, timeout, 0)), [SavingNotice, settled], ReplyAlert(reply))
  }

  /** The test sends a request exactly when a save with rememberPassword off
      would, with the same password and the same timeout. */
  lemma TestAgreesWithSave(wiki: Wiki, parseInt: string -> Option<int>, session: Option<string>,
                           answer: Option<string>, reply: Reply)
    ensures var run := InvokeAction(wiki, parseInt, answer, reply);
      var start := BeginSave(wiki, "save", false, session, answer).0;
      (run.request.Some? <==> start.Sending?)
      && (run.request.Some? ==> run.request.value.password == start.password
                                && run.request.value.timeoutMs == LoadConfig(wiki, parseInt).timeoutMs)
  {
    var start := BeginSave(wiki, "save", false, session, answer).0;
    assert Accepts(wiki, "save") == (Enabled(wiki) && !Blank(Endpoint(wiki)));
    assert start.Sending? <==> Accepts(wiki, "save") && answer.Some? && answer.value != "";
  }

  /** A JSON `error` replaces the status line; without one the status shows
      in decimal. */
  lemma RefusedDetailShowsStatus(status: nat, statusText: string, body: ErrorBody)
    requires body.NotJson? || body.error.None? || body.error == Some("")
    ensures var detail := RefusedDetail(status, statusText, body);
      var digits := NatToString(status);
      |digits| + 5 <= |detail| && detail[..5] == "HTTP " && detail[5..5 + |digits|] == digits
      && detail[5 + |digits|..] == " " + statusText && DigitsValue(digits) == status
  {
    var digits := NatToString(status);
    ThreeParts("HTTP ", digits, " " + statusText);
    AppendAssoc("HTTP " + digits, " ", statusText);
    NatToStringRoundTrip(status);
  }

  // showAlert

  /** The modal's title and the colour name `showAlert` picks for a type. */
  function AlertTitle(kind: string): string {
    if kind == "success" then "Test Successful"
    else if kind == "error" then "Test Failed"
    else if kind == "info" then "Test Cancelled"
    else "Cloudflare Save Test"
  }

  function AlertColor(kind: string): string {
    if kind == "success" then "green"
    else if kind == "error" then "red"
    else if kind == "info" then "blue"
    else ""
  }

  function Background(color: string): string {
    if color == "green" then "#d4edda" else if color == "red" then "#f8d7da" else "#d1ecf1"
  }

  function BorderColor(color: string): string {
    if color == "green" then "#c3e6cb" else if color == "red" then "#f5c6cb" else "#bee5eb"
  }

  /** "blue" has no shade of its own: an info alert is drawn like an alert
      of unknown type, and only the title tells them apart. */
  lemma InfoLooksLikeDefault(other: string)
    requires other != "success" && other != "error" && other != "info"
    ensures Background(AlertColor("info")) == Background(AlertColor(other))
    ensures BorderColor(AlertColor("info")) == BorderColor(AlertColor(other))
    ensures AlertTitle("info") != AlertTitle(other)
  {
  }

  /** One line of the message after `trim`, dropped when blank. */
  function Kept(line: string): seq<string> {
    var s := Strip(line);
    if s == "" then [] else [s]
  }

  /** The pieces of `message.split('\n').map(trim).filter(Boolean)`: each
      line stripped, blank lines dropped. */
  function KeepLines(lines: seq<string>): seq<string> {
    if |lines| == 0 then [] else Kept(lines[0]) + KeepLines(lines[1..])
  }

  /** A paragraph of the modal: non-empty, stripped, on one line. */
  predicate IsParagraph(p: string) {
    p != "" && IsStripped(p) && '\n' !in p
  }

  function Paragraphs(message: string): seq<string> {
    KeepLines(Split(message, '\n'))
  }

  /** The message text of the modal: the paragraphs joined by blank lines. */
  function Normalise(message: string): string {
    Join(Paragraphs(message), "\n\n")
  }

  lemma {:induction false} KeepLinesAreParagraphs(lines: seq<string>)
    requires forall i :: 0 <= i < |lines| ==> '\n' !in lines[i]
    ensures forall i :: 0 <= i < |KeepLines(lines)| ==> IsParagraph(KeepLines(lines)[i])
  {
    if |lines| > 0 {
      StripKeepsOnlyChars(lines[0], '\n');
      KeepLinesAreParagraphs(lines[1..]);
    }
  }

  /** Every paragraph is a non-blank line of the message, stripped. */
  lemma ParagraphsOfMessage(message: string)
    ensures forall i :: 0 <= i < |Paragraphs(message)| ==> IsParagraph(Paragraphs(message)[i])
  {
    SplitPieces(message, '\n');
    KeepLinesAreParagraphs(Split(message, '\n'));
  }

  /** The lines of `Join(ps, "\n\n")`: each paragraph followed by an empty
      line, except the last. */
  function Spaced(ps: seq<string>): (r: seq<string>)
    ensures |ps| > 0 ==> |r| > 0
  {
    if |ps| <= 1 then ps else [ps[0]] + ([""] + Spaced(ps[1..]))
  }

  lemma {:induction false} JoinSpaced(ps: seq<string>)
    ensures Join(ps, "\n\n") == Join(Spaced(ps), "\n")
  {
    if |ps| > 1 {
      JoinSpaced(ps[1..]);
      var rest := Spaced(ps[1..]);
      assert ([ps[0]] + ([""] + rest))[1..] == [""] + rest;
      assert ([""] + rest)[1..] == rest;
    }
  }

  lemma {:induction false} KeepLinesCons(line: string, rest: seq<string>)
    ensures KeepLines([line] + rest) == Kept(line) + KeepLines(rest)
  {
    assert ([line] + rest)[1..] == rest;
  }

  lemma KeptParagraph(p: string)
    requires p != "" && IsStripped(p)
    ensures Kept(p) == [p]
  {
  }

  lemma KeptBlank()
    ensures Kept("") == []
  {
  }

  lemma {:induction false} SpacedLines(ps: seq<string>)
    requires forall i :: 0 <= i < |ps| ==> IsParagraph(ps[i])
    ensures forall i :: 0 <= i < |Spaced(ps)| ==> '\n' !in Spaced(ps)[i]
  {
    if |ps| > 1 {
      SpacedLines(ps[1..]);
      var rest := Spaced(ps[1..]);
      assert forall i :: 2 <= i < |Spaced(ps)| ==> Spaced(ps)[i] == rest[i - 2];
    }
  }

  lemma {:induction false} KeepParagraphThenBlank(p: string, rest: seq<string>)
    requires p != "" && IsStripped(p)
    ensures KeepLines([p] + ([""] + rest)) == [p] + KeepLines(rest)
  {
    var blankThen := [""] + rest;
    var k := KeepLines(rest);
    KeptBlank();
    KeepLinesCons("", rest);
    assert KeepLines(blankThen) == k;
    KeptParagraph(p);
    KeepLinesCons(p, blankThen);
  }

  lemma {:induction false} KeepSpaced(ps: seq<string>)
    requires forall i :: 0 <= i < |ps| ==> IsParagraph(ps[i])
    ensures KeepLines(Spaced(ps)) == ps
  {
    if |ps| == 1 {
      KeepLinesCons(ps[0], []);
      KeptParagraph(ps[0]);
      assert [ps[0]] + [] == ps;
    } else if |ps| > 1 {
      var tail := ps[1..];
      KeepSpaced(tail);
      KeepParagraphThenBlank(ps[0], Spaced(tail));
      assert ps == [ps[0]] + tail;
    }
  }

  /** Splitting the joined paragraphs into lines and normalising gives the
      paragraphs back. */
  lemma ParagraphsOfJoin(ps: seq<string>)
    requires forall i :: 0 <= i < |ps| ==> IsParagraph(ps[i])
    ensures Paragraphs(Join(ps, "\n\n")) == ps
  {
    if |ps| == 0 {
      assert Split("", '\n') == [""];
      assert KeepLines([""]) == [] + KeepLines([]);
    } else {
      JoinSpaced(ps);
      KeepSpaced(ps);
      SpacedLines(ps);
      SplitJoin(Spaced(ps), '\n');
    }
  }

  /** The i-th line of the spaced paragraphs: a paragraph at even i, an
      empty line at odd i. */
  lemma {:induction false} SpacedAt(ps: seq<string>, i: nat)
    requires i < |Spaced(ps)|
    ensures |Spaced(ps)| == 2 * |ps| - 1
    ensures Spaced(ps)[i] == if i % 2 == 0 then ps[i / 2] else ""
  {
    if |ps| > 1 {
      var rest := Spaced(ps[1..]);
      if i >= 2 {
        SpacedAt(ps[1..], i - 2);
        assert Spaced(ps)[i] == rest[i - 2];
      } else if |rest| > 0 {
        SpacedAt(ps[1..], 0);
      }
    }
  }

  /** The normalised message has no blank line other than the single
      separators between paragraphs: its lines alternate between a paragraph
      and an empty line, starting and ending with a paragraph. */
  lemma NormalisedLines(message: string, i: nat)
    requires |Paragraphs(message)| > 0
    requires i < |Split(Normalise(message), '\n')|
    ensures var lines := Split(Normalise(message), '\n');
      |lines| == 2 * |Paragraphs(message)| - 1
      && (lines[i] == "" <==> i % 2 == 1)
      && (i % 2 == 0 ==> lines[i] == Paragraphs(message)[i / 2])
  {
    var ps := Paragraphs(message);
    ParagraphsOfMessage(message);
    JoinSpaced(ps);
    SpacedLines(ps);
    SplitJoin(Spaced(ps), '\n');
    SpacedAt(ps, i);
  }

  /** Normalising the modal's text again changes nothing. */
  lemma NormaliseIdempotent(message: string)
    ensures Normalise(Normalise(message)) == Normalise(message)
  {
    ParagraphsOfMessage(message);
    ParagraphsOfJoin(Paragraphs(message));
  }

  const ResultTiddler: string := "$:/temp/cloudflare-test-result"

  const BackgroundStyle: string := "<div style=\"background-color: "
  const BorderStyle: string := "; border: 1px solid "
  const BoxStyle: string := "; border-radius: 4px; padding: 15px; margin: 10px 0;\">"

  /** The opening line of the modal's box, in the alert's colours. */
  function BoxOpen(kind: string): string {
    BackgroundStyle + Background(AlertColor(kind)) + BorderStyle + BorderColor(AlertColor(kind)) + BoxStyle
  }

  /** The closing of the modal's box, after the message. */
  const BoxClose: string := "\n\n</div>"

  /** The modal's text: the box, the title as a heading, the message. */
  function AlertText(alert: Alert): string {
    BoxOpen(alert.kind) + BoxContent(alert)
  }

  /** What the box holds after its opening line. */
  function BoxContent(alert: Alert): string {
    "\n\n!! " + AlertTitle(alert.kind) + "\n\n" + Normalise(alert.message) + BoxClose
  }

  /** The tiddler `showAlert` writes before it displays it as a modal. */
  function AlertTiddler(title: string, text: string): (t: Record)
    ensures |t| == 4 && UniqueKeys(t)
    ensures t[0] == (TitleField, ResultTiddler) && t[1] == (TextField, text)
    ensures t[2] == ("type", "text/vnd.tiddlywiki") && t[3] == ("modal-title", title)
  {
    [(TitleField, ResultTiddler), (TextField, text), ("type", "text/vnd.tiddlywiki"), ("modal-title", title)]
  }

  /** `showAlert`: the tiddler it writes, titled by the alert's type. */
  function ShowAlert(alert: Alert): (t: Record)
    ensures UniqueKeys(t)
    ensures Get(t, TitleField) == Some(ResultTiddler)
    ensures Get(t, "type") == Some("text/vnd.tiddlywiki")
    ensures Get(t, "modal-title") == Some(AlertTitle(alert.kind))
    ensures Get(t, TextField) == Some(AlertText(alert))
    ensures var text := Get(t, TextField).value;
      var head := BoxOpen(alert.kind) + "\n\n!! " + AlertTitle(alert.kind) + "\n\n";
      var body := Normalise(alert.message);
      |head| + |body| <= |text| && text[..|head|] == head
      && text[|head|..|head| + |body|] == body && text[|head| + |body|..] == BoxClose
  {
    var t := AlertTiddler(AlertTitle(alert.kind), AlertText(alert));
    GetAt(t, 0);
    GetAt(t, 1);
    GetAt(t, 2);
    GetAt(t, 3);
    ShownMessage(alert);
    t
  }

  /** The modal's text is the box in the type's colours, the heading, the
      normalised message and the closing of the box, in that order. */
  lemma ShownMessage(alert: Alert)
    ensures var text := AlertText(alert);
      var head := BoxOpen(alert.kind) + "\n\n!! " + AlertTitle(alert.kind) + "\n\n";
      var body := Normalise(alert.message);
      |head| + |body| <= |text| && text[..|head|] == head
      && text[|head|..|head| + |body|] == body && text[|head| + |body|..] == BoxClose
  {
    var box := BoxOpen(alert.kind);
    var title := AlertTitle(alert.kind);
    var body := Normalise(alert.message);
    var h := "\n\n!! " + title + "\n\n";
    AppendAssoc(box, h + body, BoxClose);
    AppendAssoc(box, h, body);
    AppendAssoc(box, "\n\n!! " + title, "\n\n");
    AppendAssoc(box, "\n\n!! ", title);
    ThreeParts(box + "\n\n!! " + title + "\n\n", body, BoxClose);
  }

  /** The modal's text opens the box in the background and border shades
      of the alert's type. */
  lemma ShownColours(alert: Alert)
    ensures var text := AlertText(alert);
      var open := BackgroundStyle;
      var bg := Background(AlertColor(alert.kind));
      var mid := BorderStyle;
      var border := BorderColor(AlertColor(alert.kind));
      var n := |open| + |bg| + |mid|;
      n + |border| <= |text| && text[..|open|] == open && text[|open|..|open| + |bg|] == bg
      && text[n..n + |border|] == border
  {
    var bg := Background(AlertColor(alert.kind));
    var border := BorderColor(AlertColor(alert.kind));
    FourParts(BackgroundStyle, bg, BorderStyle, border, BoxStyle + BoxContent(alert));
    AppendAssoc(BackgroundStyle + bg + BorderStyle + border, BoxStyle, BoxContent(alert));
  }

  /** Where each of three concatenated parts lies. */
  lemma ThreeParts<T>(a: seq<T>, b: seq<T>, c: seq<T>)
    ensures var s := a + b + c;
      |a| + |b| <= |s| && s[..|a|] == a && s[|a|..|a| + |b|] == b && s[|a| + |b|..] == c
  {
    var s := a + b + c;
    assert s[..|a|] == a;
    assert s[|a|..|a| + |b|] == b;
    assert s[|a| + |b|..] == c;
  }

  /** Where each of the first four parts of a concatenation lies. */
  lemma FourParts<T>(a: seq<T>, b: seq<T>, c: seq<T>, d: seq<T>, rest: seq<T>)
    ensures var s := a + b + c + d + rest;
      var n := |a| + |b| + |c|;
      n + |d| <= |s| && s[..|a|] == a && s[|a|..|a| + |b|] == b && s[n..n + |d|] == d
  {
    var s := a + b + c + d + rest;
    var n := |a| + |b| + |c|;
    assert s[..|a|] == a;
    assert s[|a|..|a| + |b|] == b;
    assert s[n..n + |d|] == d;
  }

  /** The shades of each type: green for a success, red for an error, and
      the blue shades for any other type. */
  lemma ShadesOfType(kind: string)
    ensures kind == "success" ==> (Background(AlertColor(kind)), BorderColor(AlertColor(kind))) == ("#d4edda", "#c3e6cb")
    ensures kind == "error" ==> (Background(AlertColor(kind)), BorderColor(AlertColor(kind))) == ("#f8d7da", "#f5c6cb")
    ensures kind != "success" && kind != "error" ==> (Background(AlertColor(kind)), BorderColor(AlertColor(kind))) == ("#d1ecf1", "#bee5eb")
  {
  }
}

=== FILE: tid_format.dfy ===
/** Dialect A, the `.tid` file: `key: value` header lines, a blank line,
    then the body. Both build scripts parse it the same way. */
module TidFormat {
  import opened Wrappers
  import opened Strings
  import opened Assoc
  import opened Records

  const FieldSeparator: string := ": "
  const BlankLine: string := "\n\n"

  /** The (key, value) pairs the header lines contribute, in order: each
      line containing ": " is cut at its first occurrence, other lines are
      ignored. */
  function HeaderPairs(lines: seq<string>): (r: seq<(string, string)>)
    ensures forall i :: 0 <= i < |r| ==> !Contains(r[i].0, FieldSeparator)
    ensures |r| <= |lines|
  {
    if |lines| == 0 then []
    else
      var init := HeaderPairs(lines[..|lines| - 1]);
      match Cut(lines[|lines| - 1], FieldSeparator)
      case Some(kv) => init + [kv]
      case None => init
  }

  /** The header block and the body: the content split at its first blank
      line, or all header and an empty body when there is none. */
  function SplitAtBlankLine(content: string): (string, string)
  {
    match Cut(content, BlankLine)
    case Some(parts) => parts
    case None => (content, "")
  }

  /** The fields the header block defines, a later duplicate overwriting
      the earlier value in place. */
  function HeaderFields(head: string): Record
  {
    PutAll([], HeaderPairs(Split(head, '\n')))
  }

  /** `parse_tid_file` once the file is read. */
  function ParseTid(content: string): (r: Record)
    ensures UniqueKeys(r)
    ensures TextField in Keys(r)
    ensures forall k :: k in Keys(r) ==> !Contains(k, FieldSeparator)
    ensures !Contains(content, BlankLine) ==> Get(r, TextField) == Some("")
  {
    var (head, body) := SplitAtBlankLine(content);
    var fields := HeaderFields(head);
    HeaderFieldsFacts(head);
    NoColonNoSeparator(TextField);
    Put(fields, TextField, body)
  }

  /** The header fields have distinct keys, none holding ": ". */
  lemma HeaderFieldsFacts(head: string)
    ensures UniqueKeys(HeaderFields(head))
    ensures forall k :: k in Keys(HeaderFields(head)) ==> !Contains(k, FieldSeparator)
  {
    var pairs := HeaderPairs(Split(head, '\n'));
    PutAllUnique([], pairs);
    PutAllKeys([], pairs);
    assert forall k :: k in Keys(pairs) ==> !Contains(k, FieldSeparator);
  }

  /** The body is everything after the first blank line, verbatim, later
      blank lines included: whatever follows a header block that has no
      blank line and does not end in a newline. */
  lemma TidBodyAfterFirstBlankLine(head: string, body: string)
    requires !Contains(head + "\n", BlankLine)
    ensures SplitAtBlankLine(head + BlankLine + body) == (head, body)
    ensures Get(ParseTid(head + BlankLine + body), TextField) == Some(body)
  {
    var s := head + BlankLine + body;
    forall k: nat | k < |head|
      ensures !OccursAt(s, BlankLine, k)
    {
      assert s[k..k + 2] == (head + "\n")[k..k + 2];
      assert !OccursAt(head + "\n", BlankLine, k);
    }
    CutAt(s, BlankLine, head, body);
  }

  /** A header field holds the value of the last header line with that key;
      a header literally named "text" is overwritten by the body. */
  lemma TidFieldIsLastHeader(content: string, k: string)
    ensures k != TextField ==>
      Get(ParseTid(content), k) == LastValue(HeaderPairs(Split(SplitAtBlankLine(content).0, '\n')), k)
    ensures Get(ParseTid(content), TextField) == Some(SplitAtBlankLine(content).1)
  {
    var (head, body) := SplitAtBlankLine(content);
    PutAllGet([], HeaderPairs(Split(head, '\n')), k);
  }

  /** The header line that writes a field back out. */
  function HeaderLine(kv: (string, string)): string {
    kv.0 + FieldSeparator + kv.1
  }

  function HeaderLines(fields: seq<(string, string)>): (r: seq<string>)
    ensures |r| == |fields|
    ensures forall i :: 0 <= i < |fields| ==> r[i] == HeaderLine(fields[i])
  {
    if |fields| == 0 then [] else HeaderLines(fields[..|fields| - 1]) + [HeaderLine(fields[|fields| - 1])]
  }

  /** Writing a tiddler in dialect A: header lines, a blank line, the body. */
  function RenderTid(fields: seq<(string, string)>, body: string): string {
    Join(HeaderLines(fields), "\n") + BlankLine + body
  }

  /** Fields that can be written as header lines and read back unchanged:
      distinct keys other than "text", no ": " in a key, no newline in a key
      or value. */
  predicate WritableHeaders(fields: seq<(string, string)>) {
    && UniqueKeys(fields)
    && (forall i :: 0 <= i < |fields| ==>
          && fields[i].0 != TextField
          && !Contains(fields[i].0, FieldSeparator)
          && '\n' !in fields[i].0
          && '\n' !in fields[i].1)
  }

  /** No newline is next to another one: the text holds no blank line. */
  predicate NoDoubleNewline(s: string) {
    forall i :: 0 < i < |s| && s[i] == '\n' ==> s[i - 1] != '\n'
  }

  lemma NoDoubleNewlineNoBlankLine(s: string)
    requires NoDoubleNewline(s)
    ensures !Contains(s, BlankLine)
  {
    forall k: nat | k + 2 <= |s|
      ensures !OccursAt(s, BlankLine, k)
    {
      assert s[k..k + 2][0] == s[k] && s[k..k + 2][1] == s[k + 1];
    }
  }

  lemma {:induction false} JoinedLinesNoDoubleNewline(lines: seq<string>)
    requires forall i :: 0 <= i < |lines| ==> |lines[i]| > 0 && '\n' !in lines[i]
    ensures NoDoubleNewline(Join(lines, "\n") + "\n")
    decreases |lines|
  {
    if |lines| == 1 {
      var s := lines[0] + "\n";
      forall i | 0 < i < |s| && s[i] == '\n'
        ensures s[i - 1] != '\n'
      {
        assert s[i - 1] == lines[0][i - 1];
        assert lines[0][i - 1] in lines[0];
      }
    } else if |lines| > 1 {
      var p := lines[0];
      var t := Join(lines[1..], "\n") + "\n";
      JoinedLinesNoDoubleNewline(lines[1..]);
      var s := p + "\n" + t;
      assert Join(lines, "\n") + "\n" == s;
      assert t[0] == lines[1][0] && lines[1][0] in lines[1];
      forall i | 0 < i < |s|
        ensures s[i] == '\n' ==> s[i - 1] != '\n'
      {
        if i <= |p| {
          assert s[i - 1] == p[i - 1] && p[i - 1] in p;
        } else if i == |p| + 1 {
          assert s[i] == t[0];
        } else {
          assert s[i] == t[i - |p| - 1] && s[i - 1] == t[i - |p| - 2];
        }
      }
    }
  }

  lemma {:induction false} HeaderPairsOfLines(fields: seq<(string, string)>)
    requires forall i :: 0 <= i < |fields| ==> !Contains(fields[i].0, FieldSeparator)
    ensures HeaderPairs(HeaderLines(fields)) == fields
  {
    if |fields| > 0 {
      var init := fields[..|fields| - 1];
      var last := fields[|fields| - 1];
      var lines := HeaderLines(fields);
      HeaderPairsOfLines(init);
      assert lines[..|lines| - 1] == HeaderLines(init);
      assert lines[|lines| - 1] == last.0 + FieldSeparator + last.1;
      CutColonSpace(last.0, last.1);
      assert HeaderPairs(lines) == HeaderPairs(HeaderLines(init)) + [last];
      assert fields == init + [last];
    }
  }

  /** Header lines of fields without newlines are non-empty single lines. */
  lemma HeaderLinesArePlain(fields: seq<(string, string)>)
    requires forall i :: 0 <= i < |fields| ==> '\n' !in fields[i].0 && '\n' !in fields[i].1
    ensures forall i :: 0 <= i < |HeaderLines(fields)| ==>
      |HeaderLines(fields)[i]| > 0 && '\n' !in HeaderLines(fields)[i]
  {
    var lines := HeaderLines(fields);
    forall i | 0 <= i < |lines|
      ensures |lines[i]| > 0 && '\n' !in lines[i]
    {
      assert lines[i] == fields[i].0 + ": " + fields[i].1;
      assert lines[i][|fields[i].0|] == ':';
    }
  }

  /** The header block written for fields reads back as those fields. */
  lemma HeadPairs(fields: seq<(string, string)>)
    requires WritableHeaders(fields)
    ensures HeaderPairs(Split(Join(HeaderLines(fields), "\n"), '\n')) == fields
  {
    var lines := HeaderLines(fields);
    if |fields| == 0 {
      assert Split(Join(lines, "\n"), '\n') == [""];
      assert Cut("", FieldSeparator) == None;
    } else {
      HeaderLinesArePlain(fields);
      SplitJoin(lines, '\n');
      HeaderPairsOfLines(fields);
    }
  }

  /** Writing fields and a body in dialect A and parsing the result gives
      back exactly those fields, in order, followed by the body as "text". */
  lemma TidRoundTrip(fields: seq<(string, string)>, body: string)
    requires WritableHeaders(fields)
    ensures ParseTid(RenderTid(fields, body)) == fields + [(TextField, body)]
  {
    var lines := HeaderLines(fields);
    var head := Join(lines, "\n");
    HeaderLinesArePlain(fields);
    JoinedLinesNoDoubleNewline(lines);
    NoDoubleNewlineNoBlankLine(head + "\n");
    TidBodyAfterFirstBlankLine(head, body);
    HeadPairs(fields);
    assert [] + fields == fields;
    PutAllFresh([], fields);
    assert TextField !in Keys(fields);
  }
}

=== FILE: wrappers.dfy ===
/** Optional values and results with an error, used wherever the scripts
    return None, exit early or raise. */
module Wrappers {

  /** A value that may be absent: Python's None, JavaScript's null/NaN. */
  datatype Option<+T> = None | Some(value: T) {

    /** The value, or the given default when absent. */
    function GetOr(default: T): T {
      match this
      case Some(v) => v
      case None => default
    }
  }

  /** The outcome of a step that can fail with an error of type E. */
  datatype Result<+R, +E> = Success(value: R) | Failure(error: E)
}
